=== FILE: README.md ===
# WD Alpha storefront: a verified model of the query and state layer

This project models the logic under the WD Alpha storefront's pages. The storefront is a
client-side shop for modular electronics. The model covers four parts of it:

- **The storefront controller** (`Main.js`): the catalog query pipeline and the product-count
  line. The pipeline filters by category, then by search text, then by price range, and then
  sorts.
  - Paging: the slice shown per page, the page-change guard, and the choice of page buttons.
  - The fallback shopping cart and the compare list, both updated in place.
  - The reset, theme and look-up handlers.
  - The CSV form of the product export.
- **The recent-launches manager** (`recent-launches.js`). Its `getRecentProductsByCategory` is
  the catalog's category filter (`Catalog.InCategory`) applied to the recent products. The manager covers:
  - detecting the products launched within a number of days, newest first;
  - stamping `isNew`, `daysSinceLaunch` and `hasPromotion` onto every product;
  - the statistics of the recent launches;
  - the priority-sorted announcement list;
  - the card badge and the promotion countdown;
  - the read-only queries;
  - merging partial settings into the defaults.
- **The product table and its helpers** (`products.js`): look-up by id, the category,
  "new" and "featured" filters, and the summary statistics.
- **The configuration tree** (`config.js`): `getConfig` and `setConfig`, which read and write
  a nested object along a dot-separated key path.

Dates and clock readings are millisecond timestamps (integers). A day is 86 400 000 ms. The
clock is a parameter: one `now` stands for all the readings of one pass (see
`Launches.RecentLaunches.Init` under Left out). `Array.prototype.sort` is modelled as a stable insertion
sort under a total preorder, as section 22.1.3.27 of ECMA-262 (ECMAScript 2019) requires. `toLowerCase`
folds the ASCII letters. `localeCompare` compares the case-folded texts code unit by code unit.

Modules:

- `Common`: options, filter, map, find, sub-sequences and rounded division.
- `Sorting`: stable insertion sort and its laws.
- `Text`: lower-casing, `includes`, `trim`, split and join, number formatting, comparison.
- `Catalog`: product records and the shared look-ups.
- `ProductTable`: the static table of `products.js`.
- `Query`, `Paging`, `Ledger` and `Export`: the pure parts of `Main.js`.
- `Storefront`: the controller's state as a class.
- `Recency`: the pure classifier logic of `recent-launches.js`.
- `Launches`: the `RecentLaunches` class.
- `ConfigTree`: `config.js`.

Where the written description of the storefront and its code disagree, the model follows
the code:

- A cart line has no quantity cap. The cap in the configuration is never read by the cart
  code.
- A category filter never matches on tags.
- The cart total multiplies the price of the product stored in each line. It does not look
  the product up again.

## Model

| member | source | states |
|---|---|---|
| Query.FilterByCategory | Main.js:508-516 | keeps exactly the products of the category, in catalog order: for 'new', those marked new; for 'premium', those priced above 4000 (strict); otherwise those whose category equals the name |
| Query.FilterBySearch | Main.js:518-529 | keeps exactly the products where the lower-cased query occurs in the lower-cased name, specialty or description, or in any feature or tag; catalog order kept |
| Query.FilterByPrice | Main.js:531-536 | keeps exactly the products whose price (a missing one read as 0) lies in [min, max], both ends included; catalog order kept |
| Query.SearchEmptyKeepsAll | Main.js:518-529 | the empty query keeps every product |
| Query.SearchIgnoresCase | Main.js:518-520 | the result does not depend on the case of the query |
| Query.SearchNarrows | Main.js:518-529 | typing more characters only narrows the result, keeping its order |
| Query.EmptyPriceRange | Main.js:531-536 | a range with min > max selects nothing |
| Query.CategoryFilterIdempotent | Main.js:508-516 | filtering twice by one category is filtering once |
| Query.PrecedesIsPreorder | Main.js:538-570 | each comparator (newest, price up and down, name up and down, popular) is a total preorder |
| Query.SortProducts | Main.js:538-570 | an unknown sort key returns the list in its own order |
| Query.SortProductsOrder | Main.js:538-570 | the result is a permutation of the input, ordered by launch date descending, price ascending or descending, name either way, or popularity descending; a missing date, price or popularity counts as 0 |
| Query.SortProductsStable | Main.js:538-570 | products the comparator cannot tell apart keep their relative order |
| Query.SortProductsIdempotent | Main.js:538-570 | sorting a sorted list again changes nothing |
| Query.CategoryStage | Main.js:483-485 | the category stage, skipped for 'all', is a filter whose test passes every product when skipped |
| Query.SearchStage | Main.js:488-490 | the search stage runs only when the query trims to a non-empty text; it is a filter either way |
| Query.PriceStage | Main.js:493-499 | the price stage runs only when a range is set; it is a filter either way |
| Query.NarrowAsFilters | Main.js:479-499 | the three stages, in the controller's order, are three filters in a row |
| Query.FiltersCompose | Main.js:479-499 | three filters in a row are one filter with the conjunction of their tests |
| Query.NarrowIsFilter | Main.js:479-499 | the narrowed list is the catalog filtered by "passes every active criterion" |
| Query.NarrowKeepsOrder | Main.js:479-499 | before the sort, the narrowed list is a sub-sequence of the catalog |
| Query.ApplyFiltersPermutes | Main.js:479-506 | the listing is a reordering of the selected products, each kept as often as in the catalog |
| Query.ApplyFiltersSelects | Main.js:479-506 | `Query.ApplyFilters`: the listing holds a product exactly when the catalog does and it passes every active criterion |
| Query.ApplyFiltersOrdered | Main.js:479-506 | for a known sort key the listing is sorted by that key |
| Query.ApplyFiltersDefaults | Main.js:479-506 | with every criterion at its default, the listing is the sorted catalog |
| Text.TrimEmptyIffBlank | Main.js:488 | `query.trim()` is empty exactly when the query consists of white space only |
| Text.ToLowerIdempotent | Main.js:519-527 | lower-casing twice is lower-casing once |
| Text.LocaleCompareIsPreorder | Main.js:555-562 | the name comparison is a total preorder |
| Paging.PageItems | Main.js:259-262 | page p shows the items at positions (p-1)·n up to (p-1)·n+n, clipped to the list |
| Paging.TotalPages | Main.js:424 | the page count is the least number of n-item pages that hold the list |
| Paging.AcceptsPageIffNonEmpty | Main.js:815-818 | a page is accepted exactly when it shows at least one product |
| Paging.PagesCoverList | Main.js:259-262 | reading every page in turn shows each product once, in list order |
| Paging.ProductCountMatchesPage | Main.js:575-586 | on an accepted page the announced "start-end of total" range names exactly the products the page shows |
| Paging.RenderPagination | Main.js:422-474 | hidden for one page or fewer; otherwise Previous is disabled on page 1 and Next on the last page; buttons go left to right in strictly increasing position; each is a numbered button for page 1, the last page or a page within two of the current one (active on the current page), or an ellipsis at distance 3; every such page gets one |
| Ledger.LineIndex | Main.js:853 | the first line carrying the id, or -1 when no line does |
| Ledger.RemoveLines | Main.js:1162-1163 | exactly the lines of other ids, in cart order |
| Ledger.SumsAppend | Main.js:1116-1118 | appending a line adds its quantity to the badge count and price times quantity to the total |
| Ledger.SumsUpdate | Main.js:1116-1118 | changing one line's quantity moves the count and the total by the difference |
| Ledger.SumsRemove | Main.js:1116-1118 | removing an id's lines lowers the count by its quantity and the total by their value |
| Ledger.BadgeShownIffNonEmpty | Main.js:588-595 | the badge count is at least the number of lines, so it is shown exactly when the cart is non-empty |
| Ledger.AddLineSpec | Main.js:843-862 | `Ledger.AddLine`: adding keeps one line per id with quantities >= 1; the product's quantity rises by 1 and no other changes; the count rises by 1; the total rises by the line's price |
| Ledger.AddLineQuantity | Main.js:853-862 | an existing line gets one more unit; otherwise a new line with quantity 1 appears |
| Ledger.AddLineSums | Main.js:853-862 | adding raises the badge count by 1 and the total by one unit's price |
| Ledger.ChangeQuantitySpec | Main.js:1148-1160 | `Ledger.ChangeQuantity`: a change on a missing id does nothing; a line reaching 0 or less disappears; otherwise its quantity moves by the change; other ids keep their quantities; the cart stays valid |
| Ledger.UpdateLineSpec | Main.js:1148-1157 | setting a line to a positive quantity keeps the cart valid and changes only that id |
| Ledger.RemoveSpec | Main.js:1162-1163 | removing leaves no unit of the id, keeps every other id's quantity and keeps the cart valid |
| Ledger.AddThenDecrement | Main.js:843-862 | adding a product and taking one unit away restores the cart |
| Ledger.LinesFromAdd | Main.js:844-862 | only catalog products enter the cart |
| Ledger.RemoveAtSpec | Main.js:907 | splicing out one position of a duplicate-free list removes exactly that id |
| Ledger.CompareToggleSpec | Main.js:889-912 | `Ledger.CompareToggle`: the compare list stays duplicate-free and holds at most 4 ids; a present id is removed; an absent id is added exactly when fewer than 4 are selected, and otherwise nothing changes; other ids are untouched |
| Ledger.CompareToggleTwice | Main.js:889-912 | selecting an id and toggling it again restores the list |
| Export.ExportRowOf | Main.js:1456-1462 | the export record keeps id, name and category; a missing price exports as 0; the date text is present exactly when the product has a launch date |
| Export.Cells | Main.js:1477-1483 | a row has five cells |
| Export.RowLines | Main.js:1477-1485 | one line per row: its cells joined by commas |
| Export.CsvLines | Main.js:1475-1486 | `Export.ConvertToCSV`: when no text holds a line break, splitting the export at line breaks gives the header followed by one line per row |
| Export.CsvCells | Main.js:1477-1485 | when a row's texts hold no comma, its line splits back into exactly its five cells |
| Storefront.Storefront.constructor | Main.js:87-106 | initial state: the catalog, an empty cart and compare list, category 'all', sort 'newest', empty query, no price range, page 1; the page size is the user's stored one when saved (applied before the first render, Main.js:1404-1409), else the configured one (12 when absent or 0); the theme is the stored one, else the configured one, else 'dark'; the listing is the filtered catalog |
| Storefront.Storefront.ApplyFilters | Main.js:479-506 | the listing becomes the query pipeline applied to the catalog with the current criteria; nothing else changes |
| Storefront.Storefront.HandleCategoryChange | Main.js:752-767 | sets the category, returns to page 1, recomputes the listing; the rest is unchanged |
| Storefront.Storefront.HandleSortChange | Main.js:769-778 | sets the sort key, returns to page 1, recomputes the listing; the rest is unchanged |
| Storefront.Storefront.HandleSearch | Main.js:780-792 | stores the untrimmed query, returns to page 1, recomputes the listing; the rest is unchanged |
| Storefront.Storefront.HandlePageChange | Main.js:815-827 | a page outside [1, ceil(n/perPage)] leaves the current page unchanged; any other page becomes current |
| Storefront.Storefront.ResetFilters | Main.js:1213-1244 | every criterion back to its default, page 1, listing recomputed; the cart, compare list and theme are kept |
| Storefront.Storefront.ToggleTheme | Main.js:1202-1208 | 'dark' becomes 'light', anything else becomes 'dark'; the theme always changes |
| Storefront.Storefront.GetProduct | Main.js:1493-1495 | the first catalog product with the id, or nothing exactly when no product has it |
| Storefront.Storefront.AddToCart | Main.js:843-862 | an id outside the catalog changes nothing; otherwise the product's line gains a unit or a new line appears; cart invariants kept |
| Storefront.Storefront.UpdateCartQuantity | Main.js:1148-1160 | the cart becomes the quantity-changed cart (lines reaching 0 or less removed); cart invariants kept |
| Storefront.Storefront.RemoveFromCart | Main.js:1162-1163 | the cart loses the id's line; invariants kept |
| Storefront.Storefront.CompareToggle | Main.js:889-912 | the compare list is toggled; the id is selected afterwards exactly when it was not and fewer than 4 were selected |
| Storefront.Storefront.RenderProducts | Main.js:255-262 | the page shown holds at most a page's worth of products and is empty only when the listing is |
| Storefront.Storefront.UpdateProductCount | Main.js:575-586 | "no products" exactly for an empty listing; otherwise 1 <= start <= end <= total, and the range is the page shown |
| Storefront.Storefront.UpdateCartBadge | Main.js:588-595 | the badge number is the sum of the quantities, at least the number of lines, shown exactly for a non-empty cart |
| Catalog.FindById | products.js:397-399 | the first product with the id, or nothing exactly when none has it |
| Catalog.FindByIdDistinct | products.js:397-399 | with distinct ids the look-up returns the one product carrying the id |
| Catalog.InCategory | products.js:401-403 | exactly the products whose category equals the name, in catalog order |
| ProductTable.DayStart | products.js:263 | a `YYYY-MM-DD` date of today reads back as the midnight at or before now, less than a day earlier |
| ProductTable.Products | products.js:13-390 | the table holds fourteen products |
| ProductTable.TablePricesPresent | products.js:13-390 | every table entry has a price, and no price is negative |
| ProductTable.TableIdsDistinct | products.js:13-390 | no two table entries share an id |
| ProductTable.NewProducts | products.js:405-414 | exactly the products with a launch date no earlier than now minus the given days, in catalog order |
| ProductTable.FeaturedProducts | products.js:416-418 | exactly the products marked featured, in catalog order |
| ProductTable.StatsConsistent | products.js:421-431 | `ProductTable.GetStats`: total is the table length; main modules plus extension kits, new products and made-in-Pakistan counts each stay within it; the average is the rounded mean price, and there is none for an empty table |
| Common.RoundedQuotientWithin | recent-launches.js:132 | `Math.round(sum / n)` of values within [lo, hi] lies within [lo, hi] |
| Recency.Merge | recent-launches.js:15-30 | `{ ...defaults, ...config }`: each of the ten settings is the patch's value when the patch holds that key and the base value otherwise; a patch holding no keys leaves the settings unchanged |
| Recency.MergeCompose | recent-launches.js:601-602 | two updates in a row are one update with both patches, the later winning; repeating an update changes nothing |
| Recency.NewestFirstIsPreorder | recent-launches.js:61-63 | newest-first by launch date is a total preorder |
| Recency.LaunchedMembers | recent-launches.js:47-65 | `Recency.Launched`: the recent products are exactly the products with a launch date at or after now minus the threshold days, each as often as in the catalog |
| Recency.LaunchedOrder | recent-launches.js:198-209 | the result is newest first and every product in it has a launch date within the window (both for the detection and for `getProductsByRecency`) |
| Recency.LaunchedStable | recent-launches.js:61-63 | products launched at the same instant keep their catalog order |
| Recency.StampSpec | recent-launches.js:73-94 | `Recency.Stamp`: a product without a date is untouched; otherwise isNew holds exactly for a date within the window; daysSinceLaunch is the floor of the elapsed days; hasPromotion is set (iff within the promotion days) only when promotionDays > 0; nothing else changes |
| Recency.LaunchedStampAll | recent-launches.js:73-94 | stamping keeps launch dates, so detecting on the stamped catalog gives the stamped detection |
| Recency.MarkedNewIffRecent | recent-launches.js:51-80 | with one clock reading, a catalog product is marked new exactly when it is among the recent launches |
| Recency.CategoryOrderSpec | recent-launches.js:112-115 | the category table's key list names each key once, and exactly the keys of the table |
| Recency.CategoryCountsSum | recent-launches.js:112-115 | the per-category counts add up to the number of recent products |
| Recency.CategoryCountsKeys | recent-launches.js:112-115 | the keys are the products' categories, a missing one counted as 'uncategorized' |
| Recency.CategoryCountsValue | recent-launches.js:112-115 | each count is the number of products carrying the key |
| Recency.PriceRangeSpec | recent-launches.js:118-121 | for a non-empty list the minimum is a product's price and at most every price; the maximum is at least every price, and it is a product's price unless all prices are negative (it starts from 0) |
| Recency.PriceSumBounds | recent-launches.js:117-132 | prices within [lo, hi] sum to between n·lo and n·hi |
| Recency.AverageInRange | recent-launches.js:132 | the rounded average price lies between the minimum and the maximum |
| Recency.TimelineKeepsOrder | recent-launches.js:123-133 | over a list already newest first, the timeline is one entry per product in list order |
| Launches.TabulateStats | recent-launches.js:99-137 | against `Recency.StatsOf`: the single pass computes the statistics: counts per category, price sum, minimum and maximum, rounded average and newest-first timeline |
| Recency.PromotionalProducts | recent-launches.js:221-226 | exactly the recent products with hasPromotion and an active launch promotion, in order |
| Recency.Offers | recent-launches.js:168-184 | one limited-offer announcement per promotional product, in order |
| Recency.UrgentFirst | recent-launches.js:186-190 | the priority sort moves the high-priority notice behind the urgent offers, keeping their order |
| Recency.AnnouncementsSpec | recent-launches.js:142-193 | `Recency.Announcements`: nothing exactly when no product is new or the banner is off; otherwise the offers come first, then the one launch notice; the first entry is an offer exactly when a promotion exists |
| Launches.AppendOffers | recent-launches.js:173-184 | appends the offers of the promotional products after the announcements already listed |
| Recency.BadgeOfStamped | recent-launches.js:261-278 | `Recency.BadgeFor`: with one clock reading and promotion days set, the badge is the promotion badge exactly within the promotion window; otherwise "just launched" exactly within 15 days; otherwise the configured text |
| Recency.CountdownFor | recent-launches.js:333-355 | no countdown without an end date; "expired" exactly when the end is not after now; otherwise whole days and hours (0-23) whose span is at most the time left and less than one hour short of it |
| Recency.IsProductNew | recent-launches.js:428-431 | holds exactly when some recent product carries the id |
| Recency.DaysSinceLaunchOf | recent-launches.js:436-440 | nothing exactly when no product has the id or its day count is missing or 0; otherwise the first such product's count |
| Recency.FindByIdStampAll | recent-launches.js:436-438 | the look-up in the stamped catalog finds the stamped product |
| Recency.LaunchedTodayHasNoDayCount | recent-launches.js:436-440 | a product launched less than a day before the stamping clock gives nothing |
| Launches.RecentLaunches.constructor | recent-launches.js:8-33 | settings are the defaults overridden by the given ones; with auto-detection on, the catalog is stamped and the recent launches and statistics computed; otherwise nothing is detected |
| Launches.RecentLaunches.Init | recent-launches.js:35-42 | with auto-detection on: detect, stamp, recompute statistics; otherwise no change |
| Launches.RecentLaunches.DetectRecentLaunches | recent-launches.js:47-68 | the recent products are the detection at now minus the threshold; the count equals their number |
| Launches.RecentLaunches.MarkNewProducts | recent-launches.js:73-94 | every catalog product is stamped, and the recent products, the same objects, come out stamped too; the recent list still equals the detection |
| Launches.RecentLaunches.CalculateStats | recent-launches.js:99-137 | returns the statistics of the recent products; stores them only when there are some |
| Launches.RecentLaunches.GenerateAnnouncement | recent-launches.js:142-193 | returns exactly the announcement list of the recent products and settings |
| Launches.RecentLaunches.UpdateConfig | recent-launches.js:601-610 | the patch is merged into the settings, then re-initialised: with auto-detection on, the catalog is stamped, the recent launches re-detected and the statistics recomputed (stored when there are recent launches); otherwise nothing else changes |
| Launches.RecentLaunches.ResetConfig | recent-launches.js:615-618 | back to the defaults (auto-detection on), then re-initialised: the catalog stamped, the recent launches re-detected and the statistics recomputed (stored when there are recent launches) |
| ConfigTree.ConfigStore.GetConfig | config.js:658-670 | against `ConfigTree.Get`: the value at the path; the default as soon as a key is undefined; a throw when reading through null; the tree is not changed |
| ConfigTree.ConfigStore.SetConfig | config.js:678-693 | the tree becomes the written tree, or stays as it was when the write throws |
| ConfigTree.PutThenGet | config.js:678-693 | `ConfigTree.Put` then `ConfigTree.Get`: when every existing intermediate is an object, the write succeeds and reading the path returns the value written |
| ConfigTree.PutBlocked | config.js:683-693 | otherwise the write throws or is silently dropped |
| ConfigTree.PutIntoEmpty | config.js:683-689 | below a missing key a write never throws |
| ConfigTree.PutMakesObjects | config.js:683-689 | after the write every proper prefix of the path reaches an object |
| ConfigTree.PutKeepsOthers | config.js:691-692 | every path that parts from the written one keeps its value |

## Left out

- Launches.RecentLaunches.Init: one `now` stands for every clock reading of one `init` pass — the detection threshold (recent-launches.js:48) and the two per-product thresholds of `markNewProducts` (recent-launches.js:77, 88) — and, in the constructor, for `currentDate` (recent-launches.js:11) too; a clock tick between those readings, which can separate a product dated exactly at a threshold from the recent list, is not modelled. `UpdateConfig` and `ResetConfig` share this.
- Rendering: the HTML of cards, modals, pagination, the timeline and the statistics summary, plus all DOM updates. Only the decisions behind them are modelled: which page items, buttons, badge and countdown.
- I/O and persistence: `fetch` of the catalog, `localStorage` (the stored theme is a parameter), the persistence step of `setConfig`, `location.reload` and `console.warn`.
- Timers, event wiring, `CustomEvent` dispatch and analytics calls.
- `CartManager` is not part of this model. Only the controller's fallback cart is modelled.
- Time: dates are millisecond timestamps. There is no local calendar, time zone or daylight saving, and `setDate(getDate() - days)` is read as subtracting whole days of 86 400 000 ms. The timeline's sort key reads a missing launch date as the epoch. In JavaScript that date would be invalid and its comparison `NaN`, but the case cannot arise: detection keeps only dated products.
- Text: `toLowerCase` folds the ASCII letters only. `localeCompare` is a code-unit order on the case-folded texts, not a locale collation.
- Export.ConvertToCSV: cells are joined as written and quotes inside names are not escaped. The export file download is not modelled.
- ProductTable.Products: descriptions, features, tags and the specification blocks of the table entries are left empty. Launch dates relative to today use `DayStart`.
- ProductTable.GetStats: a product without a price adds 0 to the sum. An empty table gives no average rather than `NaN`.
- Storefront.Storefront.constructor: requires a configured page size that is absent or non-negative, and a stored page size that is at least 1. A stored text that `parseInt` reads as 0, a negative number or `NaN` would make the paging arithmetic at Main.js:424 and 816 meaningless, and is not modelled.
- Storefront.Storefront.UpdateProductCount: the count line is computed from the current state on each call. The controller's page change does not redraw it, so the text on screen can name the previous page's range. That stale screen text is not modelled.
- Product records: `specialty` is always a text. A product without one would make the search throw at its `toLowerCase` call, and that case is not modelled.
- Recency.Merge: a patch key explicitly set to `undefined`, or a key the settings do not know, is not modelled.
- `updateBadges` only touches the DOM and is not modelled. `getJustLaunchedProducts` is `getProductsByRecency(14)`, which is `Recency.Launched` with a 14-day threshold.
- `exportRecentProducts`, `getDisplayConfig`, `getAllNewProducts`, `getNewProductIds`, `hasNewProducts`, `getNewProductsCount` and the global `RecentLaunchesManager`: trivial accessors or I/O, not modelled.
- Launches.RecentLaunches.MarkNewProducts: the stamp is applied to both the catalog and the recent list, which stands for their sharing of product objects. The controller's own product array is a separate value in this model.
- ConfigTree.ConfigStore.SetConfig: the tree is a value, so a write rebuilds the objects along the path instead of mutating shared nested objects. Aliasing between configuration objects is not captured. A value of `undefined` is not modelled.
- ConfigTree.ConfigStore.GetConfig: properties of primitives (such as a string's `length`) and inherited object properties read as undefined. Non-strict mode is assumed for writes into primitives.
- The static configuration blocks (theme, SEO, shipping, discount codes, tax rate) and its category filter and sort closures, which the controller never calls.

=== FILE: catalog.dfy ===
/** Product records as the storefront reads them, and the catalog look-ups shared by the
    controller, the recency classifier and the static product table.
    Launch dates and clock readings are millisecond timestamps; a missing or empty field
    of the source's records is `None` (or `false`, or the empty list, where the source only
    tests it for truthiness or iterates over it). */
module Catalog {
  import opened Common

  /** 1000 * 60 * 60 * 24: the length of a day in milliseconds. */
  const DayMs: int := 86_400_000

  datatype Promotion = Promotion(active: bool, description: string, validUntil: Option<int>)

  datatype LaunchInfo = LaunchInfo(
    launchDate: Option<int>,
    isNew: bool,
    isFeatured: bool,
    popularity: Option<int>,
    daysSinceLaunch: Option<int>,
    hasPromotion: bool,
    launchPromotion: Option<Promotion>)

  datatype Product = Product(
    id: string,
    name: string,
    specialty: string,
    description: Option<string>,
    category: Option<string>,
    features: seq<string>,
    tags: seq<string>,
    finalPrice: Option<int>,
    madeInPakistan: bool,
    launchInfo: Option<LaunchInfo>)

  /** `p.pricing?.finalPrice || 0`. */
  function PriceOrZero(p: Product): int
  {
    if p.finalPrice.Some? then p.finalPrice.value else 0
  }

  /** `p.launchInfo?.launchDate`, when present. */
  function LaunchDate(p: Product): Option<int>
  {
    if p.launchInfo.Some? then p.launchInfo.value.launchDate else None
  }

  /** `new Date(p.launchInfo?.launchDate || 0)`: a missing date counts as the epoch. */
  function DateOrEpoch(p: Product): int
  {
    if LaunchDate(p).Some? then LaunchDate(p).value else 0
  }

  /** `p.launchInfo?.popularity || 0`. */
  function PopularityOrZero(p: Product): int
  {
    if p.launchInfo.Some? && p.launchInfo.value.popularity.Some? then p.launchInfo.value.popularity.value else 0
  }

  /** `p.launchInfo?.isNew` is truthy. */
  predicate IsMarkedNew(p: Product)
  {
    p.launchInfo.Some? && p.launchInfo.value.isNew
  }

  /** `p.launchInfo?.isFeatured` is truthy. */
  predicate IsFeatured(p: Product)
  {
    p.launchInfo.Some? && p.launchInfo.value.isFeatured
  }

  /** The instant `days` days before `now`. */
  function Threshold(now: int, days: int): int
  {
    now - days * DayMs
  }

  /** The product has a launch date and it is not before `threshold` (inclusive). */
  predicate LaunchedSince(p: Product, threshold: int)
  {
    LaunchDate(p).Some? && LaunchDate(p).value >= threshold
  }

  function LaunchedSinceTest(threshold: int): Product -> bool
  {
    (p: Product) => LaunchedSince(p, threshold)
  }

  /** The sum of the prices, a missing price counting as 0, added from the first product on. */
  function PriceSum(ps: seq<Product>): int
  {
    if ps == [] then 0 else PriceSum(ps[..|ps| - 1]) + PriceOrZero(ps[|ps| - 1])
  }

  /** `products.find(p => p.id === id)`: the first product with that id, if any. */
  function FindById(ps: seq<Product>, id: string): (r: Option<Product>)
    ensures r.None? <==> forall k :: 0 <= k < |ps| ==> ps[k].id != id
    ensures r.Some? ==> exists k :: 0 <= k < |ps| && ps[k] == r.value && r.value.id == id
                          && forall j :: 0 <= j < k ==> ps[j].id != id
  {
    Find(ps, IdIs(id))
  }

  function IdIs(id: string): Product -> bool
  {
    (p: Product) => p.id == id
  }

  function CategoryIs(category: string): Product -> bool
  {
    (p: Product) => p.category == Some(category)
  }

  /** `products.filter(p => p.category === category)`. */
  function InCategory(ps: seq<Product>, category: string): (r: seq<Product>)
    ensures forall k :: 0 <= k < |r| ==> r[k] in ps && r[k].category == Some(category)
    ensures forall k :: 0 <= k < |ps| && ps[k].category == Some(category) ==> ps[k] in r
    ensures IsSubseq(r, ps)
  {
    Filter(ps, CategoryIs(category))
  }

  predicate DistinctIds(ps: seq<Product>)
  {
    forall i, j :: 0 <= i < j < |ps| ==> ps[i].id != ps[j].id
  }

  /** With distinct ids, the look-up returns the one product carrying the id. */
  lemma FindByIdDistinct(ps: seq<Product>, k: int)
    requires DistinctIds(ps) && 0 <= k < |ps|
    ensures FindById(ps, ps[k].id) == Some(ps[k])
  {
    var r := FindById(ps, ps[k].id);
    var j :| 0 <= j < |ps| && ps[j] == r.value && r.value.id == ps[k].id
             && forall i :: 0 <= i < j ==> ps[i].id != ps[k].id;
    assert j == k;
  }
}

=== FILE: common.dfy ===
/** Small value-level helpers shared by every part of the storefront model:
    optional values, order-preserving filters and sub-sequences. */
module Common {

  datatype Option<+T> = None | Some(value: T)

  /** `a` is `b` with some elements dropped and the rest kept in order. */
  predicate IsSubseq<T(==)>(a: seq<T>, b: seq<T>)
  {
    if a == [] then true
    else if b == [] then false
    else if a[0] == b[0] then IsSubseq(a[1..], b[1..])
    else IsSubseq(a, b[1..])
  }

  lemma {:induction false} IsSubseqRefl<T>(a: seq<T>)
    ensures IsSubseq(a, a)
  {
    if a != [] { IsSubseqRefl(a[1..]); }
  }

  lemma {:induction false} IsSubseqCons<T>(a: seq<T>, x: T, t: seq<T>)
    requires IsSubseq(a, t)
    ensures IsSubseq(a, [x] + t)
    decreases |a| + |t| + 1, 1
  {
    assert ([x] + t)[1..] == t;
    if a != [] && a[0] == x {
      IsSubseqTail(a, t);
    }
  }

  lemma {:induction false} IsSubseqTail<T>(a: seq<T>, b: seq<T>)
    requires a != [] && IsSubseq(a, b)
    ensures IsSubseq(a[1..], b)
    decreases |a| + |b|, 0
  {
    assert b == [b[0]] + b[1..];
    if a[0] == b[0] {
      IsSubseqCons(a[1..], b[0], b[1..]);
    } else {
      IsSubseqTail(a, b[1..]);
      IsSubseqCons(a[1..], b[0], b[1..]);
    }
  }

  lemma {:induction false} IsSubseqTrans<T>(a: seq<T>, b: seq<T>, c: seq<T>)
    requires IsSubseq(a, b) && IsSubseq(b, c)
    ensures IsSubseq(a, c)
    decreases |c|
  {
    if a == [] {
    } else {
      assert c == [c[0]] + c[1..];
      if b[0] == c[0] {
        if a[0] == b[0] {
          IsSubseqTrans(a[1..], b[1..], c[1..]);
        } else {
          IsSubseqTrans(a, b[1..], c[1..]);
          IsSubseqCons(a, c[0], c[1..]);
        }
      } else {
        IsSubseqTrans(a, b, c[1..]);
        IsSubseqCons(a, c[0], c[1..]);
      }
    }
  }

  lemma {:induction false} IsSubseqMultiset<T>(a: seq<T>, b: seq<T>)
    requires IsSubseq(a, b)
    ensures multiset(a) <= multiset(b)
  {
    if a == [] {
    } else if a[0] == b[0] {
      IsSubseqMultiset(a[1..], b[1..]);
      assert a == [a[0]] + a[1..];
      assert b == [b[0]] + b[1..];
    } else {
      IsSubseqMultiset(a, b[1..]);
      assert b == [b[0]] + b[1..];
    }
  }

  /** `Array.prototype.filter`: the elements satisfying `keep`, in their original order. */
  function Filter<T(==)>(s: seq<T>, keep: T -> bool): (r: seq<T>)
    ensures |r| <= |s|
    ensures forall k :: 0 <= k < |r| ==> r[k] in s && keep(r[k])
    ensures forall k :: 0 <= k < |s| && keep(s[k]) ==> s[k] in r
    ensures IsSubseq(r, s)
  {
    if s == [] then []
    else if keep(s[0]) then [s[0]] + Filter(s[1..], keep)
    else Filter(s[1..], keep)
  }

  lemma {:induction false} FilterAppend<T>(a: seq<T>, b: seq<T>, keep: T -> bool)
    ensures Filter(a + b, keep) == Filter(a, keep) + Filter(b, keep)
  {
    if a == [] {
      assert a + b == b;
    } else {
      var s := a + b;
      assert s[0] == a[0] && s[1..] == a[1..] + b;
      FilterAppend(a[1..], b, keep);
      if keep(a[0]) {
        calc {
          Filter(s, keep);
          [a[0]] + Filter(a[1..] + b, keep);
          [a[0]] + (Filter(a[1..], keep) + Filter(b, keep));
          ([a[0]] + Filter(a[1..], keep)) + Filter(b, keep);
        }
      } else {
        assert Filter(s, keep) == Filter(a[1..] + b, keep);
        assert Filter(a, keep) == Filter(a[1..], keep);
      }
    }
  }

  lemma {:induction false} FilterMultiset<T>(s: seq<T>, keep: T -> bool)
    ensures multiset(Filter(s, keep)) <= multiset(s)
  {
    IsSubseqMultiset(Filter(s, keep), s);
  }

  /** Filtering twice with the same test changes nothing the second time. */
  lemma {:induction false} FilterIdempotent<T>(s: seq<T>, keep: T -> bool)
    ensures Filter(Filter(s, keep), keep) == Filter(s, keep)
  {
    if s != [] {
      FilterIdempotent(s[1..], keep);
    }
  }

  /** The test passed by what passes both `f` and `g`. */
  function Both<T>(f: T -> bool, g: T -> bool): T -> bool
  {
    x => f(x) && g(x)
  }

  /** Filtering by `f` and then by `g` is filtering once by both tests. */
  lemma {:induction false} FilterFilter<T>(s: seq<T>, f: T -> bool, g: T -> bool)
    ensures Filter(Filter(s, f), g) == Filter(s, Both(f, g))
  {
    if s != [] {
      FilterFilter(s[1..], f, g);
    }
  }

  /** Two tests that agree on every element select the same elements. */
  lemma {:induction false} FilterCongruent<T>(s: seq<T>, f: T -> bool, g: T -> bool)
    requires forall k :: 0 <= k < |s| ==> f(s[k]) == g(s[k])
    ensures Filter(s, f) == Filter(s, g)
  {
    if s != [] {
      FilterCongruent(s[1..], f, g);
    }
  }

  /** A test every element passes keeps the whole sequence. */
  lemma {:induction false} FilterAll<T>(s: seq<T>, keep: T -> bool)
    requires forall k :: 0 <= k < |s| ==> keep(s[k])
    ensures Filter(s, keep) == s
  {
    if s != [] {
      FilterAll(s[1..], keep);
    }
  }

  /** A stricter test selects a sub-sequence of what a looser test selects. */
  lemma {:induction false} FilterMonotone<T>(s: seq<T>, f: T -> bool, g: T -> bool)
    requires forall k :: 0 <= k < |s| ==> f(s[k]) ==> g(s[k])
    ensures IsSubseq(Filter(s, f), Filter(s, g))
  {
    if s != [] {
      FilterMonotone(s[1..], f, g);
      if !f(s[0]) && g(s[0]) {
        IsSubseqCons(Filter(s[1..], f), s[0], Filter(s[1..], g));
      }
    }
  }

  /** A reordering of a filter holds exactly the elements of `s` that pass the test. */
  lemma {:induction false} PermutedFilterMembers<T>(r: seq<T>, s: seq<T>, keep: T -> bool)
    requires multiset(r) == multiset(Filter(s, keep))
    ensures forall k :: 0 <= k < |r| ==> r[k] in s && keep(r[k])
    ensures forall k :: 0 <= k < |s| && keep(s[k]) ==> s[k] in r
  {
    var f := Filter(s, keep);
    forall k | 0 <= k < |r|
      ensures r[k] in s && keep(r[k])
    {
      assert r[k] in multiset(f);
      var j :| 0 <= j < |f| && f[j] == r[k];
    }
    forall k | 0 <= k < |s| && keep(s[k])
      ensures s[k] in r
    {
      assert s[k] in multiset(f);
    }
  }

  /** `Array.prototype.map`. */
  function Map<T, U>(s: seq<T>, f: T -> U): (r: seq<U>)
    ensures |r| == |s|
    ensures forall k :: 0 <= k < |s| ==> r[k] == f(s[k])
  {
    if s == [] then [] else [f(s[0])] + Map(s[1..], f)
  }

  /** Searching the mapped list with a test that agrees with `test` through `f` finds
      the image of what searching the list finds. */
  lemma {:induction false} FindMap<T, U>(s: seq<T>, f: T -> U, test: T -> bool, test': U -> bool)
    requires forall x :: test'(f(x)) == test(x)
    ensures Find(Map(s, f), test') == if Find(s, test).None? then None else Some(f(Find(s, test).value))
  {
    if s != [] {
      assert Map(s, f)[1..] == Map(s[1..], f);
      FindMap(s[1..], f, test, test');
    }
  }

  lemma {:induction false} MapAppend<T, U>(a: seq<T>, b: seq<T>, f: T -> U)
    ensures Map(a + b, f) == Map(a, f) + Map(b, f)
  {
    var l, r := Map(a + b, f), Map(a, f) + Map(b, f);
    assert |l| == |r|;
    forall k | 0 <= k < |l|
      ensures l[k] == r[k]
    {
      if k < |a| {
        assert (a + b)[k] == a[k];
      } else {
        assert (a + b)[k] == b[k - |a|];
      }
    }
  }

  /** Filtering after a map that leaves the test's outcome alone is mapping after filtering. */
  lemma {:induction false} FilterMap<T>(s: seq<T>, f: T -> T, keep: T -> bool)
    requires forall x :: keep(f(x)) == keep(x)
    ensures Filter(Map(s, f), keep) == Map(Filter(s, keep), f)
  {
    if s != [] {
      var m := Map(s, f);
      FilterMap(s[1..], f, keep);
      assert m[0] == f(s[0]) && m[1..] == Map(s[1..], f);
      assert keep(m[0]) == keep(s[0]);
      if keep(s[0]) {
        calc {
          Filter(m, keep);
          [m[0]] + Filter(m[1..], keep);
          [f(s[0])] + Map(Filter(s[1..], keep), f);
          Map([s[0]] + Filter(s[1..], keep), f);
          Map(Filter(s, keep), f);
        }
      } else {
        calc {
          Filter(m, keep);
          Filter(m[1..], keep);
          Map(Filter(s[1..], keep), f);
          Map(Filter(s, keep), f);
        }
      }
    }
  }

  /** Number of elements satisfying `keep`. */
  function Count<T(==)>(s: seq<T>, keep: T -> bool): (n: nat)
    ensures n == |Filter(s, keep)|
  {
    if s == [] then 0 else (if keep(s[0]) then 1 else 0) + Count(s[1..], keep)
  }

  /** Two tests that never hold together select at most |s| elements between them. */
  lemma {:induction false} CountDisjoint<T>(s: seq<T>, f: T -> bool, g: T -> bool)
    requires forall k :: 0 <= k < |s| ==> !(f(s[k]) && g(s[k]))
    ensures Count(s, f) + Count(s, g) <= |s|
  {
    if s != [] {
      CountDisjoint(s[1..], f, g);
    }
  }

  /** `Math.round(a / b)` for a positive divisor: the integer nearest to a / b, halves
      rounded up. */
  function RoundedQuotient(a: int, b: int): (r: int)
    requires b >= 1
    ensures b * (2 * r - 1) <= 2 * a < b * (2 * r + 1)
  {
    var r := (2 * a + b) / (2 * b);
    assert 2 * b * r <= 2 * a + b < 2 * b * r + 2 * b;
    r
  }

  lemma MulMonotone(n: int, x: int, y: int)
    requires n >= 0 && x <= y
    ensures n * x <= n * y
  {
    assert n * y - n * x == n * (y - x);
  }

  /** The rounded quotient of a value lying between n * lo and n * hi lies between lo and hi. */
  lemma {:induction false} RoundedQuotientWithin(a: int, n: int, lo: int, hi: int)
    requires n >= 1 && n * lo <= a <= n * hi
    ensures lo <= RoundedQuotient(a, n) <= hi
  {
    var r := RoundedQuotient(a, n);
    if r < lo {
      MulMonotone(n, 2 * r + 1, 2 * lo);
    }
    if r > hi {
      MulMonotone(n, 2 * hi + 1, 2 * r - 1);
    }
  }

  /** `value || fallback` for an optional text: a missing or empty text falls back. */
  function TextOr(value: Option<string>, fallback: string): string
  {
    if value.Some? && value.value != "" then value.value else fallback
  }

  /** `Array.prototype.find`: the first element satisfying `test`, if any. */
  function Find<T(==)>(s: seq<T>, test: T -> bool): (r: Option<T>)
    ensures r.None? <==> forall k :: 0 <= k < |s| ==> !test(s[k])
    ensures r.Some? ==> exists k :: 0 <= k < |s| && s[k] == r.value && test(s[k])
                          && forall j :: 0 <= j < k ==> !test(s[j])
  {
    if s == [] then None
    else if test(s[0]) then Some(s[0])
    else
      var r := Find(s[1..], test);
      if r.Some? then
        var k :| 0 <= k < |s[1..]| && s[1..][k] == r.value && test(s[1..][k])
                 && forall j :: 0 <= j < k ==> !test(s[1..][j]);
        assert s[k + 1] == r.value && forall j :: 0 <= j < k + 1 ==> !test(s[j]);
        r
      else r
  }

  /** `Array.prototype.indexOf`: the first index holding `x`, or -1. */
  function IndexOf<T(==)>(s: seq<T>, x: T): (i: int)
    ensures -1 <= i < |s|
    ensures i == -1 <==> x !in s
    ensures 0 <= i ==> s[i] == x && x !in s[..i]
  {
    if s == [] then -1
    else if s[0] == x then 0
    else
      var j := IndexOf(s[1..], x);
      if j == -1 then -1
      else
        assert s[..j + 1] == [s[0]] + s[1..][..j];
        j + 1
  }

  predicate NoDuplicates<T(==)>(s: seq<T>)
  {
    forall i, j :: 0 <= i < j < |s| ==> s[i] != s[j]
  }
}

=== FILE: config_tree.dfy ===
/** The site configuration as a tree of nested objects, read and written by dot-separated
    key paths. A read of a missing key gives the caller's default; a write creates the
    missing objects on its way down. JavaScript's behaviour on non-objects is kept: a
    property of a primitive reads as undefined and a write to one is silently dropped,
    while any access through `null` (or through an undefined intermediate) throws. */
module ConfigTree {
  import opened Common
  import opened Text

  /** A configuration value: an object of named members, a primitive (string, number or
      boolean, kept as its text), or `null`. */
  datatype Value = Obj(members: map<string, Value>) | Prim(text: string) | Null

  /** What following a key path from a value reaches: a value, nothing (`undefined`), or a
      thrown `TypeError`. */
  datatype Lookup = Found(value: Value) | Missing | Fault

  /** How a call ended: with a value, or by throwing `TypeError`. */
  datatype Outcome = Returned(value: Value) | Threw

  /** Follows `path` from `v` one key at a time. */
  function Get(v: Value, path: seq<string>): Lookup
  {
    if path == [] then Found(v)
    else
      match v
      case Obj(m) => if path[0] in m then Get(m[path[0]], path[1..]) else Missing
      case Prim(_) => Missing
      case Null => Fault
  }

  /** Stores `x` under `path` in `v`, creating every missing intermediate as an empty
      object. `None` is a thrown `TypeError`: an intermediate is `null`, or a primitive that
      is not the final parent (the cursor becomes undefined, and the next access throws).
      A primitive final parent takes the write silently and keeps its value. */
  function Put(v: Value, path: seq<string>, x: Value): Option<Value>
    requires path != []
    decreases |path|
  {
    if |path| == 1 then
      match v
      case Obj(m) => Some(Obj(m[path[0] := x]))
      case Prim(_) => Some(v)
      case Null => None
    else
      match v
      case Obj(m) =>
        var child := if path[0] in m then m[path[0]] else Obj(map[]);
        var r := Put(child, path[1..], x);
        if r.None? then None else Some(Obj(m[path[0] := r.value]))
      case Prim(_) => None
      case Null => None
  }

  /** Every intermediate along `path` that exists is an object; missing ones are allowed. */
  predicate ObjectsAlong(v: Value, path: seq<string>)
  {
    if path == [] then true
    else
      match v
      case Obj(m) => |path| == 1 || path[0] !in m || ObjectsAlong(m[path[0]], path[1..])
      case Prim(_) => false
      case Null => false
  }

  /** Neither path is a prefix of the other: they part at some key. */
  predicate Diverge(p: seq<string>, q: seq<string>)
  {
    p != [] && q != [] && (p[0] != q[0] || Diverge(p[1..], q[1..]))
  }

  /** A write through objects always succeeds, and a read of the same path then returns
      the value written. */
  lemma {:induction false} PutThenGet(v: Value, path: seq<string>, x: Value)
    requires path != [] && ObjectsAlong(v, path)
    ensures Put(v, path, x).Some? && Get(Put(v, path, x).value, path) == Found(x)
    decreases |path|
  {
    if |path| > 1 {
      var m := v.members;
      var child := if path[0] in m then m[path[0]] else Obj(map[]);
      PutThenGet(child, path[1..], x);
    }
  }

  /** Otherwise the write has no effect: it throws, or a primitive swallows it. */
  lemma {:induction false} PutBlocked(v: Value, path: seq<string>, x: Value)
    requires path != [] && !ObjectsAlong(v, path)
    ensures Put(v, path, x) == None || Put(v, path, x) == Some(v)
  {
    if |path| > 1 && v.Obj? {
      var m := v.members;
      PutBlocked(m[path[0]], path[1..], x);
      assert m[path[0] := m[path[0]]] == m;
    }
  }

  /** A write below a missing key never throws: everything under it is created fresh. */
  lemma {:induction false} PutIntoEmpty(path: seq<string>, x: Value)
    requires path != []
    ensures Put(Obj(map[]), path, x).Some?
  {
    if |path| > 1 {
      PutIntoEmpty(path[1..], x);
    }
  }

  /** A write changes no path that parts from the written one: sibling keys of every
      object on the way down keep their values. */
  lemma {:induction false} PutKeepsOthers(v: Value, p: seq<string>, x: Value, q: seq<string>)
    requires p != [] && Diverge(p, q) && Put(v, p, x).Some?
    ensures Get(Put(v, p, x).value, q) == Get(v, q)
    decreases |p|
  {
    var t := Put(v, p, x).value;
    if v.Obj? && t != v {
      var m := v.members;
      if p[0] != q[0] {
        assert t.members == m[p[0] := t.members[p[0]]];
      } else {
        var child := if p[0] in m then m[p[0]] else Obj(map[]);
        if |p| == 1 {
          assert false;
        }
        PutKeepsOthers(child, p[1..], x, q[1..]);
        if p[0] !in m {
          EmptyHasNothing(q[1..]);
        }
      }
    }
  }

  /** Below an empty object every non-empty path is missing. */
  lemma EmptyHasNothing(q: seq<string>)
    requires q != []
    ensures Get(Obj(map[]), q) == Missing
  {
  }

  /** After a successful write through objects, every proper prefix of the path reaches
      an object: the missing intermediates now exist as objects. */
  lemma {:induction false} PutMakesObjects(v: Value, path: seq<string>, x: Value, j: int)
    requires path != [] && ObjectsAlong(v, path) && 0 <= j < |path|
    ensures Put(v, path, x).Some? && Get(Put(v, path, x).value, path[..j]).Found?
    ensures Get(Put(v, path, x).value, path[..j]).value.Obj?
    decreases |path|
  {
    PutThenGet(v, path, x);
    if j > 0 {
      var m := v.members;
      var child := if path[0] in m then m[path[0]] else Obj(map[]);
      PutMakesObjects(child, path[1..], x, j - 1);
      assert path[..j][1..] == path[1..][..j - 1];
    }
  }

  /** The live configuration object. */
  class ConfigStore {
    var root: Value

    constructor (initial: Value)
      ensures root == initial
    {
      root := initial;
    }

    /** `getConfig`: the value at the dot-separated `path`, or `default` as soon as a key is
        undefined. Reading through `null` throws. The tree is not changed. */
    method GetConfig(path: string, default: Value) returns (r: Outcome)
      ensures var found := Get(root, Split(path, '.'));
        r == match found
             case Found(v) => Returned(v)
             case Missing => Returned(default)
             case Fault => Threw
    {
      var parts := Split(path, '.');
      var current := root;
      for i := 0 to |parts|
        invariant Get(root, parts) == Get(current, parts[i..])
      {
        assert parts[i..][1..] == parts[i + 1..];
        match current
        case Null =>
          return Threw;
        case Prim(_) =>
          return Returned(default);
        case Obj(m) =>
          if parts[i] !in m {
            return Returned(default);
          }
          current := m[parts[i]];
      }
      assert parts[|parts|..] == [];
      return Returned(current);
    }

    /** `setConfig`: stores `value` under the dot-separated `path`, creating the missing
        objects along it. On a `TypeError` (reported in `threw`) the tree is unchanged. */
    method SetConfig(path: string, value: Value) returns (threw: bool)
      modifies this
      ensures var r := Put(old(root), Split(path, '.'), value);
        && (threw <==> r.None?)
        && root == (if r.Some? then r.value else old(root))
    {
      var r := Put(root, Split(path, '.'), value);
      if r.Some? {
        root := r.value;
        threw := false;
      } else {
        threw := true;
      }
    }
  }
}

=== FILE: csv_export.dfy ===
/** The CSV form of the product export: one header line, then one line per exported
    product with its id, quoted name, category, price and launch date. */
module Export {
  import opened Common
  import opened Text
  import opened Catalog

  /** The record `exportProducts` builds for each listed product. */
  datatype ExportRow = ExportRow(
    id: string,
    name: string,
    category: Option<string>,
    price: int,
    launchDate: Option<string>)

  /** The export record of a product: a missing price exports as 0. Launch dates are kept as
      timestamps in this model; `dateText` gives the text the catalog stores for one. */
  function ExportRowOf(p: Product, dateText: int -> string): (r: ExportRow)
    ensures r.id == p.id && r.name == p.name && r.category == p.category
    ensures r.price == (if p.finalPrice.Some? then p.finalPrice.value else 0)
    ensures r.launchDate.Some? <==> LaunchDate(p).Some?
  {
    ExportRow(p.id, p.name, p.category, PriceOrZero(p),
              if LaunchDate(p).Some? then Some(dateText(LaunchDate(p).value)) else None)
  }

  const Header: seq<string> := ["ID", "Name", "Category", "Price", "Launch Date"]

  /** The five cells of a row; `join` prints a missing category as the empty text, and a
      missing or empty launch date is written 'N/A'. */
  function Cells(row: ExportRow): (r: seq<string>)
    ensures |r| == 5
  {
    [row.id,
     "\"" + row.name + "\"",
     if row.category.Some? then row.category.value else "",
     IntToString(row.price),
     TextOr(row.launchDate, "N/A")]
  }

  function RowLines(rows: seq<ExportRow>): (r: seq<string>)
    ensures |r| == |rows|
    ensures forall k :: 0 <= k < |rows| ==> r[k] == Join(Cells(rows[k]), ',')
  {
    if rows == [] then [] else [Join(Cells(rows[0]), ',')] + RowLines(rows[1..])
  }

  /** `convertToCSV`: the header and the rows, each joined by ',', the lines joined by '\n'. */
  function ConvertToCSV(rows: seq<ExportRow>): string
  {
    Join([Join(Header, ',')] + RowLines(rows), '\n')
  }

  /** The row's own texts hold no `c`. */
  predicate FreeOf(row: ExportRow, c: char)
  {
    && c !in row.id && c !in row.name
    && (row.category.Some? ==> c !in row.category.value)
    && (row.launchDate.Some? ==> c !in row.launchDate.value)
  }

  lemma {:induction false} CellsFreeOf(row: ExportRow, c: char)
    requires FreeOf(row, c) && c != '"' && c != '-' && !('0' <= c <= '9') && c !in "N/A"
    ensures forall k :: 0 <= k < 5 ==> c !in Cells(row)[k]
  {
    var cells := Cells(row);
    assert c !in cells[1] by {
      assert cells[1] == "\"" + row.name + "\"";
    }
    forall i | 0 <= i < |cells[3]|
      ensures cells[3][i] != c
    {
    }
  }

  /** Joining never-empty texts without the separator and splitting again gives them back. */
  lemma {:induction false} JoinWithout(parts: seq<string>, sep: char)
    requires |parts| >= 1
    requires forall k :: 0 <= k < |parts| ==> sep !in parts[k]
    ensures sep !in Join(parts, sep) <==> |parts| == 1
  {
    if |parts| > 1 {
      assert Join(parts, sep) == parts[0] + [sep] + Join(parts[1..], sep);
      assert Join(parts, sep)[|parts[0]|] == sep;
    }
  }

  /** When no text of a row holds a line break, the export splits at '\n' into the header
      line followed by exactly one line per row, in order. */
  lemma {:induction false} CsvLines(rows: seq<ExportRow>)
    requires forall k :: 0 <= k < |rows| ==> FreeOf(rows[k], '\n')
    ensures Split(ConvertToCSV(rows), '\n') == [Join(Header, ',')] + RowLines(rows)
    ensures |Split(ConvertToCSV(rows), '\n')| == |rows| + 1
  {
    var lines := [Join(Header, ',')] + RowLines(rows);
    LinesFreeOf(rows);
    SplitJoin(lines, '\n');
  }

  lemma LinesFreeOf(rows: seq<ExportRow>)
    requires forall k :: 0 <= k < |rows| ==> FreeOf(rows[k], '\n')
    ensures forall k :: 0 <= k < |rows| + 1 ==> '\n' !in ([Join(Header, ',')] + RowLines(rows))[k]
  {
    assert '\n' !in Join(Header, ',') by {
      HeaderFreeOf();
    }
    forall k | 0 <= k < |rows|
      ensures '\n' !in RowLines(rows)[k]
    {
      RowLineFreeOf(rows[k], '\n');
    }
  }

  lemma HeaderFreeOf()
    ensures '\n' !in Join(Header, ',')
  {
    LineFreeOf(Header, ',', '\n');
  }

  lemma RowLineFreeOf(row: ExportRow, c: char)
    requires FreeOf(row, c) && c != ',' && c != '"' && c != '-' && !('0' <= c <= '9') && c !in "N/A"
    ensures c !in Join(Cells(row), ',')
  {
    CellsFreeOf(row, c);
    LineFreeOf(Cells(row), ',', c);
  }

  /** Joining texts that avoid `c` with a separator other than `c` gives a text avoiding `c`. */
  lemma {:induction false} LineFreeOf(parts: seq<string>, sep: char, c: char)
    requires sep != c
    requires forall k :: 0 <= k < |parts| ==> c !in parts[k]
    ensures c !in Join(parts, sep)
  {
    if |parts| > 1 {
      LineFreeOf(parts[1..], sep, c);
      assert Join(parts, sep) == parts[0] + [sep] + Join(parts[1..], sep);
    }
  }

  /** When no text of a row holds a comma, its line splits at ',' into exactly its five
      cells: the id, the name in double quotes, the category, the price and the date. */
  lemma {:induction false} CsvCells(rows: seq<ExportRow>, k: int)
    requires 0 <= k < |rows| && FreeOf(rows[k], ',')
    ensures Split(RowLines(rows)[k], ',') == Cells(rows[k])
  {
    CellsFreeOf(rows[k], ',');
    SplitJoin(Cells(rows[k]), ',');
  }
}

=== FILE: ledger.dfy ===
/** The two small ledgers of the storefront controller, as values: the fallback shopping
    cart (lines of id, product and quantity) and the list of product ids picked for
    comparison. The controller's methods change its state by exactly these functions. */
module Ledger {
  import opened Common
  import opened Catalog

  datatype CartLine = CartLine(id: string, product: Product, quantity: int)

  /** Index of the first line for `id`, or -1 (`cart.find(item => item.id === id)`). */
  function LineIndex(cart: seq<CartLine>, id: string): (i: int)
    ensures -1 <= i < |cart|
    ensures i == -1 <==> forall k :: 0 <= k < |cart| ==> cart[k].id != id
    ensures 0 <= i ==> cart[i].id == id && forall k :: 0 <= k < i ==> cart[k].id != id
  {
    if cart == [] then -1
    else if cart[0].id == id then 0
    else
      var j := LineIndex(cart[1..], id);
      if j == -1 then -1 else j + 1
  }

  /** The first line carrying `id` is the one `LineIndex` finds. */
  lemma LineIndexAt(cart: seq<CartLine>, id: string, k: int)
    requires 0 <= k < |cart| && cart[k].id == id
    requires forall j :: 0 <= j < k ==> cart[j].id != id
    ensures LineIndex(cart, id) == k
  {
  }

  /** One line per product id, every quantity at least 1, each line holding its own product. */
  predicate CartValid(cart: seq<CartLine>)
  {
    && (forall i, j :: 0 <= i < j < |cart| ==> cart[i].id != cart[j].id)
    && (forall k :: 0 <= k < |cart| ==> cart[k].quantity >= 1 && cart[k].product.id == cart[k].id)
  }

  /** Units of `id` in the cart. */
  function Quantity(cart: seq<CartLine>, id: string): int
  {
    var i := LineIndex(cart, id);
    if i < 0 then 0 else cart[i].quantity
  }

  /** The quantity-change step of the fallback cart: one more unit on the existing line,
      or a new line with quantity 1 at the end. */
  function AddLine(cart: seq<CartLine>, product: Product): seq<CartLine>
  {
    var i := LineIndex(cart, product.id);
    if i >= 0 then cart[i := cart[i].(quantity := cart[i].quantity + 1)]
    else cart + [CartLine(product.id, product, 1)]
  }

  function OtherId(id: string): CartLine -> bool
  {
    (line: CartLine) => line.id != id
  }

  /** `cart.filter(item => item.id !== id)`. */
  function RemoveLines(cart: seq<CartLine>, id: string): (r: seq<CartLine>)
    ensures forall k :: 0 <= k < |r| ==> r[k] in cart && r[k].id != id
    ensures forall k :: 0 <= k < |cart| && cart[k].id != id ==> cart[k] in r
    ensures IsSubseq(r, cart)
  {
    Filter(cart, OtherId(id))
  }

  /** `updateCartQuantity`: nothing for an id without a line; otherwise the quantity moves
      by `change`, and the line goes once it reaches 0 or less. */
  function ChangeQuantity(cart: seq<CartLine>, id: string, change: int): seq<CartLine>
  {
    var i := LineIndex(cart, id);
    if i < 0 then cart
    else if cart[i].quantity + change <= 0 then RemoveLines(cart, id)
    else cart[i := cart[i].(quantity := cart[i].quantity + change)]
  }

  /** The cart badge: the sum of the quantities. */
  function CartCount(cart: seq<CartLine>): int
  {
    if cart == [] then 0 else cart[0].quantity + CartCount(cart[1..])
  }

  /** The cart total: each line's price (0 when missing) times its quantity. */
  function CartTotal(cart: seq<CartLine>): int
  {
    if cart == [] then 0 else PriceOrZero(cart[0].product) * cart[0].quantity + CartTotal(cart[1..])
  }

  lemma {:induction false} SumsAppend(cart: seq<CartLine>, line: CartLine)
    ensures CartCount(cart + [line]) == CartCount(cart) + line.quantity
    ensures CartTotal(cart + [line]) == CartTotal(cart) + PriceOrZero(line.product) * line.quantity
  {
    if cart != [] {
      assert (cart + [line])[1..] == cart[1..] + [line];
      SumsAppend(cart[1..], line);
    }
  }

  lemma {:induction false} SumsUpdate(cart: seq<CartLine>, i: int, q: int)
    requires 0 <= i < |cart|
    ensures CartCount(cart[i := cart[i].(quantity := q)]) == CartCount(cart) - cart[i].quantity + q
    ensures CartTotal(cart[i := cart[i].(quantity := q)])
            == CartTotal(cart) + PriceOrZero(cart[i].product) * (q - cart[i].quantity)
  {
    var c := cart[i := cart[i].(quantity := q)];
    if i == 0 {
      assert c[1..] == cart[1..];
    } else {
      assert c[1..] == cart[1..][i - 1 := cart[i].(quantity := q)];
      SumsUpdate(cart[1..], i - 1, q);
    }
  }

  lemma {:induction false} SumsRemove(cart: seq<CartLine>, id: string)
    requires forall i, j :: 0 <= i < j < |cart| ==> cart[i].id != cart[j].id
    ensures CartCount(RemoveLines(cart, id)) == CartCount(cart) - Quantity(cart, id)
    ensures CartTotal(RemoveLines(cart, id)) == CartTotal(cart)
              - (if LineIndex(cart, id) < 0 then 0 else PriceOrZero(cart[LineIndex(cart, id)].product) * Quantity(cart, id))
  {
    if cart != [] {
      SumsRemove(cart[1..], id);
      if cart[0].id == id {
        assert LineIndex(cart[1..], id) == -1;
      }
    }
  }

  /** Every line's quantity is at least 1, so the badge is positive exactly when the cart has a line. */
  lemma {:induction false} BadgeShownIffNonEmpty(cart: seq<CartLine>)
    requires CartValid(cart)
    ensures CartCount(cart) >= |cart|
    ensures CartCount(cart) > 0 <==> cart != []
  {
    if cart != [] {
      assert CartValid(cart[1..]);
      BadgeShownIffNonEmpty(cart[1..]);
    }
  }

  /** Adding a catalog product keeps the cart valid, adds one unit of it and nothing else,
      and raises the badge by 1 and the total by the line's price. */
  lemma {:induction false} AddLineSpec(cart: seq<CartLine>, product: Product, other: string)
    requires CartValid(cart)
    ensures var r := AddLine(cart, product);
      && CartValid(r)
      && Quantity(r, product.id) == Quantity(cart, product.id) + 1
      && (other != product.id ==> Quantity(r, other) == Quantity(cart, other))
      && CartCount(r) == CartCount(cart) + 1
      && CartTotal(r) == CartTotal(cart) + PriceOrZero(if Quantity(cart, product.id) == 0 then product
                                                        else cart[LineIndex(cart, product.id)].product)
  {
    AddLineValid(cart, product);
    AddLineQuantity(cart, product, product.id);
    AddLineQuantity(cart, product, other);
    AddLineSums(cart, product);
  }

  lemma {:induction false} AddLineValid(cart: seq<CartLine>, product: Product)
    requires CartValid(cart)
    ensures CartValid(AddLine(cart, product))
  {
    var r := AddLine(cart, product);
    assert forall k :: 0 <= k < |cart| ==> r[k].id == cart[k].id;
  }

  lemma {:induction false} AddLineQuantity(cart: seq<CartLine>, product: Product, id: string)
    requires CartValid(cart)
    ensures Quantity(AddLine(cart, product), id)
            == Quantity(cart, id) + (if id == product.id then 1 else 0)
  {
    var i := LineIndex(cart, product.id);
    var r := AddLine(cart, product);
    assert forall k :: 0 <= k < |cart| ==> r[k].id == cart[k].id;
    if id == product.id {
      LineIndexAt(r, id, if i >= 0 then i else |cart|);
    } else {
      var j := LineIndex(cart, id);
      if j >= 0 {
        LineIndexAt(r, id, j);
      } else {
        assert forall k :: 0 <= k < |r| ==> r[k].id != id;
      }
    }
  }

  lemma {:induction false} AddLineSums(cart: seq<CartLine>, product: Product)
    requires CartValid(cart)
    ensures CartCount(AddLine(cart, product)) == CartCount(cart) + 1
    ensures CartTotal(AddLine(cart, product)) == CartTotal(cart) + PriceOrZero(if Quantity(cart, product.id) == 0 then product
                                                                              else cart[LineIndex(cart, product.id)].product)
  {
    var i := LineIndex(cart, product.id);
    if i >= 0 {
      SumsUpdate(cart, i, cart[i].quantity + 1);
    } else {
      SumsAppend(cart, CartLine(product.id, product, 1));
    }
  }

  /** Changing a quantity keeps the cart valid: a line never holds 0 or less. The changed
      id ends with its old quantity plus `change`, or with none when that is not positive;
      other ids keep theirs, and the badge moves by the same amount. */
  lemma {:induction false} ChangeQuantitySpec(cart: seq<CartLine>, id: string, change: int, other: string)
    requires CartValid(cart)
    ensures var r := ChangeQuantity(cart, id, change);
      && CartValid(r)
      && (Quantity(cart, id) == 0 ==> r == cart)
      && (Quantity(cart, id) > 0 ==>
            Quantity(r, id) == (if Quantity(cart, id) + change <= 0 then 0 else Quantity(cart, id) + change))
      && (other != id ==> Quantity(r, other) == Quantity(cart, other))
      && CartCount(r) == CartCount(cart) - Quantity(cart, id) + Quantity(r, id)
  {
    var i := LineIndex(cart, id);
    var r := ChangeQuantity(cart, id, change);
    if i < 0 {
      assert r == cart;
    } else {
      assert Quantity(cart, id) == cart[i].quantity;
      if cart[i].quantity + change <= 0 {
        assert r == RemoveLines(cart, id);
        RemoveSpec(cart, id, other);
      } else {
        assert r == cart[i := cart[i].(quantity := cart[i].quantity + change)];
        UpdateLineSpec(cart, i, cart[i].quantity + change, other);
      }
    }
  }

  /** Setting the first line of its id to a positive quantity keeps the cart valid and
      changes that id's quantity and nothing else. */
  lemma {:induction false} UpdateLineSpec(cart: seq<CartLine>, i: int, q: int, other: string)
    requires CartValid(cart) && 0 <= i < |cart| && q >= 1
    requires LineIndex(cart, cart[i].id) == i
    ensures var r := cart[i := cart[i].(quantity := q)];
      && CartValid(r)
      && Quantity(r, cart[i].id) == q
      && (other != cart[i].id ==> Quantity(r, other) == Quantity(cart, other))
      && CartCount(r) == CartCount(cart) - cart[i].quantity + q
  {
    var r := cart[i := cart[i].(quantity := q)];
    SumsUpdate(cart, i, q);
    assert forall k :: 0 <= k < |cart| ==> r[k].id == cart[k].id;
    LineIndexAt(r, cart[i].id, i);
    if other != cart[i].id {
      var j := LineIndex(cart, other);
      if j >= 0 {
        LineIndexAt(r, other, j);
      }
    }
  }

  /** Removing an id keeps the cart valid, leaves no unit of it, keeps every other line,
      and lowers the badge by the removed quantity. */
  lemma {:induction false} RemoveSpec(cart: seq<CartLine>, id: string, other: string)
    requires CartValid(cart)
    ensures var r := RemoveLines(cart, id);
      && CartValid(r)
      && Quantity(r, id) == 0
      && (other != id ==> Quantity(r, other) == Quantity(cart, other))
      && CartCount(r) == CartCount(cart) - Quantity(cart, id)
  {
    var r := RemoveLines(cart, id);
    SumsRemove(cart, id);
    IsSubseqDistinctIds(r, cart);
    if other != id {
      var j := LineIndex(cart, other);
      if j >= 0 {
        assert cart[j] in r;
        var m :| 0 <= m < |r| && r[m] == cart[j];
        assert LineIndex(r, other) == m;
      } else {
        assert LineIndex(r, other) == -1;
      }
    }
  }

  lemma ChangeQuantityValid(cart: seq<CartLine>, id: string, change: int)
    requires CartValid(cart)
    ensures CartValid(ChangeQuantity(cart, id, change))
  {
    var i := LineIndex(cart, id);
    if i >= 0 {
      if cart[i].quantity + change <= 0 {
        RemoveValid(cart, id);
      } else {
        UpdateLineSpec(cart, i, cart[i].quantity + change, id);
      }
    }
  }

  lemma RemoveValid(cart: seq<CartLine>, id: string)
    requires CartValid(cart)
    ensures CartValid(RemoveLines(cart, id))
  {
    IsSubseqDistinctIds(RemoveLines(cart, id), cart);
  }

  /** Every line of the cart holds one of `products`. */
  predicate LinesFrom(cart: seq<CartLine>, products: seq<Product>)
  {
    forall k :: 0 <= k < |cart| ==> cart[k].product in products
  }

  /** Adding a product of the list never puts a product from elsewhere into the cart. */
  lemma {:induction false} LinesFromAdd(cart: seq<CartLine>, products: seq<Product>, product: Product)
    requires LinesFrom(cart, products) && product in products
    ensures LinesFrom(AddLine(cart, product), products)
  {
    var added := AddLine(cart, product);
    forall k | 0 <= k < |added|
      ensures added[k].product in products
    {
      if k < |cart| {
        assert added[k].product == cart[k].product;
      }
    }
  }

  /** Neither changing a quantity nor removing a line brings in another product. */
  lemma {:induction false} LinesFromChange(cart: seq<CartLine>, products: seq<Product>, id: string, change: int)
    requires LinesFrom(cart, products)
    ensures LinesFrom(ChangeQuantity(cart, id, change), products)
    ensures LinesFrom(RemoveLines(cart, id), products)
  {
    var changed := ChangeQuantity(cart, id, change);
    forall k | 0 <= k < |changed|
      ensures changed[k].product in products
    {
      if LineIndex(cart, id) >= 0 && cart[LineIndex(cart, id)].quantity + change > 0 {
        assert changed[k].product == cart[k].product;
      }
    }
  }

  lemma {:induction false} IsSubseqDistinctIds(a: seq<CartLine>, b: seq<CartLine>)
    requires IsSubseq(a, b) && CartValid(b)
    ensures CartValid(a)
  {
    if a != [] && b != [] {
      assert CartValid(b[1..]);
      if a[0] == b[0] {
        IsSubseqDistinctIds(a[1..], b[1..]);
        IsSubseqMultiset(a[1..], b[1..]);
        forall j | 0 < j < |a|
          ensures a[0].id != a[j].id
        {
          assert a[j] in multiset(a[1..]);
          assert a[j] in multiset(b[1..]);
          var m :| 0 <= m < |b[1..]| && b[1..][m] == a[j];
          assert b[m + 1] == a[j];
        }
      } else {
        IsSubseqDistinctIds(a, b[1..]);
      }
    }
  }

  /** Adding a product and taking one unit away again restores the cart. */
  lemma {:induction false} AddThenDecrement(cart: seq<CartLine>, product: Product)
    requires CartValid(cart)
    ensures ChangeQuantity(AddLine(cart, product), product.id, -1) == cart
  {
    var i := LineIndex(cart, product.id);
    var r := AddLine(cart, product);
    assert forall k :: 0 <= k < |cart| ==> r[k].id == cart[k].id;
    if i >= 0 {
      LineIndexAt(r, product.id, i);
    } else {
      var line := CartLine(product.id, product, 1);
      LineIndexAt(r, product.id, |cart|);
      FilterAppend(cart, [line], OtherId(product.id));
      FilterAll(cart, OtherId(product.id));
      assert Filter([line], OtherId(product.id)) == [];
    }
  }

  /** `handleCompareToggle`: a selected id is taken out; an unselected one is appended
      unless four are already selected. */
  function CompareToggle(selected: seq<string>, id: string): seq<string>
  {
    var i := IndexOf(selected, id);
    if i == -1 then (if |selected| >= 4 then selected else selected + [id])
    else selected[..i] + selected[i + 1..]
  }

  /** Taking out position `i` of a list without duplicates removes exactly that element. */
  lemma {:induction false} RemoveAtSpec(s: seq<string>, i: int)
    requires NoDuplicates(s) && 0 <= i < |s|
    ensures NoDuplicates(s[..i] + s[i + 1..])
    ensures forall x :: x in s[..i] + s[i + 1..] <==> x in s && x != s[i]
  {
    var r := s[..i] + s[i + 1..];
    assert forall k :: 0 <= k < |r| ==> r[k] == (if k < i then s[k] else s[k + 1]);
    forall x | x in s && x != s[i]
      ensures x in r
    {
      var k :| 0 <= k < |s| && s[k] == x;
      if k < i { assert r[k] == x; } else { assert r[k - 1] == x; }
    }
  }

  /** The compare list never holds more than four ids nor the same id twice; a toggle flips
      the membership of its id (unless the list is full) and leaves every other id alone. */
  lemma {:induction false} CompareToggleSpec(selected: seq<string>, id: string, other: string)
    requires NoDuplicates(selected)
    ensures var r := CompareToggle(selected, id);
      && NoDuplicates(r)
      && (|selected| <= 4 ==> |r| <= 4)
      && (id in r <==> id !in selected && |selected| < 4)
      && (other != id ==> (other in r <==> other in selected))
      && (id !in selected && |selected| >= 4 ==> r == selected)
  {
    var i := IndexOf(selected, id);
    if i != -1 {
      RemoveAtSpec(selected, i);
    }
  }

  /** Selecting an id and toggling it again restores the list. */
  lemma {:induction false} CompareToggleTwice(selected: seq<string>, id: string)
    requires id !in selected && |selected| < 4
    ensures CompareToggle(CompareToggle(selected, id), id) == selected
  {
    var r := selected + [id];
    assert IndexOf(r, id) == |selected| by {
      assert forall k :: 0 <= k < |selected| ==> r[k] == selected[k];
    }
    assert r[..|selected|] == selected;
  }
}

=== FILE: paging.dfy ===
/** Paging of the filtered product list: the slice a page shows, the "Showing a-b of n"
    range, which page changes are accepted, and which page buttons the pager offers. */
module Paging {

  function Min(a: int, b: int): int
  {
    if a <= b then a else b
  }

  /** How `Array.prototype.slice` reads an index: negative counts from the end, then clamped. */
  function ClampIndex(k: int, len: nat): (r: nat)
    ensures r <= len
  {
    if k < 0 then (if len + k < 0 then 0 else len + k)
    else if k > len then len
    else k
  }

  /** `s.slice(start, end)`. */
  function Slice<T>(s: seq<T>, start: int, end: int): seq<T>
  {
    var a := ClampIndex(start, |s|);
    var b := ClampIndex(end, |s|);
    if a < b then s[a..b] else []
  }

  /** Index of the first item of a page (pages count from 1). */
  function PageStart(page: int, perPage: int): int
  {
    (page - 1) * perPage
  }

  /** The products `renderProducts` shows on a page. */
  function PageItems<T>(s: seq<T>, page: int, perPage: int): (r: seq<T>)
    requires perPage >= 1
    ensures page >= 1 ==> |r| == (if PageStart(page, perPage) >= |s| then 0 else Min(perPage, |s| - PageStart(page, perPage)))
    ensures page >= 1 ==> forall k :: 0 <= k < |r| ==> PageStart(page, perPage) + k < |s| && r[k] == s[PageStart(page, perPage) + k]
  {
    Slice(s, PageStart(page, perPage), PageStart(page, perPage) + perPage)
  }

  /** `Math.ceil(n / perPage)`: the fewest pages of `perPage` items that hold `n` items. */
  function TotalPages(n: nat, perPage: int): (r: nat)
    requires perPage >= 1
    ensures (r - 1) * perPage < n <= r * perPage
  {
    var r := (n + perPage - 1) / perPage;
    assert r * perPage <= n + perPage - 1 < (r + 1) * perPage;
    r
  }

  /** `handlePageChange` accepts a page only within [1, ceil(n / perPage)]. */
  predicate AcceptsPage(page: int, n: nat, perPage: int)
    requires perPage >= 1
  {
    !(page < 1 || page > TotalPages(n, perPage))
  }

  /** A page is accepted exactly when it shows at least one product. */
  lemma {:induction false} AcceptsPageIffNonEmpty<T>(s: seq<T>, page: int, perPage: int)
    requires perPage >= 1
    ensures AcceptsPage(page, |s|, perPage) <==> page >= 1 && |PageItems(s, page, perPage)| > 0
  {
    var tp := TotalPages(|s|, perPage);
    if page >= 1 {
      if page <= tp {
        assert (page - 1) * perPage <= (tp - 1) * perPage;
      } else {
        assert (page - 1) * perPage >= tp * perPage;
      }
    }
  }

  /** The concatenation of the first `count` pages. */
  function Pages<T>(s: seq<T>, perPage: int, count: nat): seq<T>
    requires perPage >= 1
  {
    if count == 0 then [] else Pages(s, perPage, count - 1) + PageItems(s, count, perPage)
  }

  lemma {:induction false} PagesPrefix<T>(s: seq<T>, perPage: int, count: nat)
    requires perPage >= 1
    ensures Pages(s, perPage, count) == s[..Min(count * perPage, |s|)]
  {
    if count > 0 {
      PagesPrefix(s, perPage, count - 1);
      var a := Min((count - 1) * perPage, |s|);
      var b := Min(count * perPage, |s|);
      var page := PageItems(s, count, perPage);
      assert count * perPage == (count - 1) * perPage + perPage;
      assert |page| == b - a;
      assert page == s[a..b];
      assert s[..a] + s[a..b] == s[..b];
    }
  }

  /** Reading every page in turn shows each product exactly once, in list order. */
  lemma {:induction false} PagesCoverList<T>(s: seq<T>, perPage: int)
    requires perPage >= 1
    ensures Pages(s, perPage, TotalPages(|s|, perPage)) == s
  {
    PagesPrefix(s, perPage, TotalPages(|s|, perPage));
  }

  /** The product-count line: nothing found, or the 1-based range shown of the total. */
  datatype CountView = NoProducts | Showing(first: int, last: int, total: nat)

  function ProductCount(total: nat, page: int, perPage: int): CountView
  {
    if total == 0 then NoProducts
    else
      var first := PageStart(page, perPage) + 1;
      Showing(first, Min(first + perPage - 1, total), total)
  }

  /** On an accepted page, the announced range names exactly the products the page shows. */
  lemma {:induction false} ProductCountMatchesPage<T>(s: seq<T>, page: int, perPage: int)
    requires perPage >= 1 && AcceptsPage(page, |s|, perPage)
    ensures ProductCount(|s|, page, perPage).Showing?
    ensures var v := ProductCount(|s|, page, perPage);
      1 <= v.first <= v.last <= |s| && s[v.first - 1..v.last] == PageItems(s, page, perPage)
  {
    AcceptsPageIffNonEmpty(s, page, perPage);
    assert PageStart(page, perPage) >= 0;
  }

  /** Page `i` gets a numbered button: the first, the last, or within two of the current one. */
  predicate Shown(i: int, totalPages: int, current: int)
  {
    i == 1 || i == totalPages || (current - 2 <= i <= current + 2)
  }

  /** Page `i` gets a numbered button or an ellipsis. */
  predicate Listed(i: int, totalPages: int, current: int)
  {
    1 <= i <= totalPages && (Shown(i, totalPages, current) || i == current - 3 || i == current + 3)
  }

  datatype PageButton = Number(page: int, active: bool) | Dots(at: int)

  function Position(b: PageButton): int
  {
    if b.Number? then b.page else b.at
  }

  /** A numbered button for a shown page, active on the current page, or an ellipsis
      standing for a hidden page three away from the current one. */
  predicate ButtonFits(b: PageButton, totalPages: int, current: int)
  {
    && 1 <= Position(b) <= totalPages
    && match b
       case Number(i, active) => Shown(i, totalPages, current) && active == (i == current)
       case Dots(i) => !Shown(i, totalPages, current) && (i == current - 3 || i == current + 3)
  }

  datatype Pagination = Hidden | Pager(prevDisabled: bool, buttons: seq<PageButton>, nextDisabled: bool)

  /** `renderPagination`: hidden for at most one page; otherwise Prev (disabled on page 1),
      one button per listed page in increasing order, and Next (disabled on the last page). */
  method RenderPagination(total: nat, perPage: int, current: int) returns (view: Pagination)
    requires perPage >= 1
    ensures view.Hidden? <==> TotalPages(total, perPage) <= 1
    ensures view.Pager? ==>
      && view.prevDisabled == (current == 1)
      && view.nextDisabled == (current == TotalPages(total, perPage))
    ensures view.Pager? ==> var b, tp := view.buttons, TotalPages(total, perPage);
      && (forall k :: 0 <= k < |b| ==> ButtonFits(b[k], tp, current))
      && (forall j, k :: 0 <= j < k < |b| ==> Position(b[j]) < Position(b[k]))
      && (forall i :: Listed(i, tp, current) ==> exists k :: 0 <= k < |b| && Position(b[k]) == i)
  {
    var totalPages := TotalPages(total, perPage);
    if totalPages <= 1 {
      return Hidden;
    }
    var buttons: seq<PageButton> := [];
    for i := 1 to totalPages + 1
      invariant forall k :: 0 <= k < |buttons| ==> ButtonFits(buttons[k], totalPages, current) && Position(buttons[k]) < i
      invariant forall j, k :: 0 <= j < k < |buttons| ==> Position(buttons[j]) < Position(buttons[k])
      invariant forall m :: m < i && Listed(m, totalPages, current) ==>
                  exists k :: 0 <= k < |buttons| && Position(buttons[k]) == m
    {
      ghost var before := buttons;
      if i == 1 || i == totalPages || (i >= current - 2 && i <= current + 2) {
        buttons := buttons + [Number(i, i == current)];
      } else if i == current - 3 || i == current + 3 {
        buttons := buttons + [Dots(i)];
      }
      forall m | m < i + 1 && Listed(m, totalPages, current)
        ensures exists k :: 0 <= k < |buttons| && Position(buttons[k]) == m
      {
        if m < i {
          var k :| 0 <= k < |before| && Position(before[k]) == m;
          assert buttons[k] == before[k];
        } else {
          assert Position(buttons[|buttons| - 1]) == m;
        }
      }
    }
    view := Pager(current == 1, buttons, current == totalPages);
  }
}

=== FILE: product_table.dfy ===
/** The static product table of the catalog script and its read-only helpers: look-up by
    id, by category, products launched within a number of days, featured products, and the
    summary statistics. The table keeps the fields the helpers and the storefront read;
    descriptions, features and tags are left empty. Dates that the script computes from the
    clock ("today", "7 days ago") are expressed from the `now` the table is built at. */
module ProductTable {
  import opened Common
  import opened Catalog

  /** Midnight (UTC) of the day holding `now`: the instant a `YYYY-MM-DD` date string taken
      from `now` parses back to. */
  function DayStart(now: int): (r: int)
    ensures r <= now < r + DayMs
  {
    now - now % DayMs
  }

  function Launch(date: int, isNew: bool, isFeatured: bool, popularity: Option<int>,
                  promotion: Option<Promotion>): LaunchInfo
  {
    LaunchInfo(Some(date), isNew, isFeatured, popularity, None, false, promotion)
  }

  function Item(id: string, name: string, specialty: string, category: string, price: int,
                madeInPakistan: bool, launch: Option<LaunchInfo>): Product
  {
    Product(id, name, specialty, None, Some(category), [], [], Some(price), madeInPakistan, launch)
  }

  /** 2023-01-15, 2023-03-20 and 2023-04-10 at midnight UTC. */
  const Jan15of2023: int := 1_673_740_800_000
  const Mar20of2023: int := 1_679_270_400_000
  const Apr10of2023: int := 1_681_084_800_000

  /** The fourteen catalog entries, in table order. */
  function Products(now: int): (r: seq<Product>)
    ensures |r| == 14
  {
    var today := DayStart(now);
    [ Item("IR-001", "2WD Alpha Module (I) - Foundation Kit", "Robot Chassis Kit", "main", 1300, true,
           Some(Launch(Jan15of2023, false, true, Some(95), None))),
      Item("IR-002", "2WD Alpha Module (II) - Smart Navigator", "Obstacle Avoiding & Human Following Robot",
           "main", 3450, false, Some(Launch(Mar20of2023, false, false, Some(88), None))),
      Item("IR-003", "2WD Alpha Module (III) - Line Tracer", "Line Following Robot", "main", 3750, false,
           Some(Launch(Apr10of2023, false, false, Some(76), None))),
      Item("IR-004", "2WD Alpha Module (IV) - Remote Commander", "Remote Controlled Robot", "main", 3450,
           false, None),
      Item("IR-005", "2WD Alpha Module (V) - Bluetooth Commander", "Bluetooth Controlled Robot", "main",
           3850, false, None),
      Item("IR-006", "2WD Alpha Module (VI) - Tire Beast", "LFR + Obstacle Avoidance + Human Following",
           "main", 4100, false, None),
      Item("IR-007", "2WD Alpha Module (VII) - Quad Bot", "Multi-mode Advanced Robot", "main", 4850, false,
           None),
      Item("IR-008", "2WD Alpha Module (VIII) - Fall MAX", "Autonomous System Robot", "main", 5250, false,
           None),
      Item("IR-009", "2WD Alpha Module (IX) - AI Vision Bot", "AI-Powered Computer Vision Robot", "main",
           14200, true,
           Some(Launch(today, true, true, Some(92),
                       Some(Promotion(true, "Launch Special: Free AI tutorial", Some(today + 30 * DayMs)))))),
      Item("IR-010", "2WD Alpha Module (X) - Drone Edition", "Aerial Robotics Kit", "main", 9700, false,
           Some(Launch(today - 7 * DayMs, true, true, None, None))),
      Item("IR-101", "2WD Alpha Extension (II)", "Obstacle Avoidance Add-on", "extension", 2080, false, None),
      Item("IR-102", "2WD Alpha Extension (III)", "Line Following Add-on", "extension", 2350, false, None),
      Item("IR-103", "2WD Alpha Extension (IX) - AI Vision Upgrade", "AI Vision Upgrade Kit", "extension",
           4800, false, Some(Launch(today - 2 * DayMs, true, true, None, None))),
      Item("IR-201", "Indus Beginner Kit", "Complete Starter Package", "starter", 2050, false, None) ]
  }

  /** Every entry carries a price, and none is negative. */
  lemma TablePricesPresent(now: int)
    ensures forall k :: 0 <= k < |Products(now)| ==>
              Products(now)[k].finalPrice.Some? && Products(now)[k].finalPrice.value >= 0
  {
  }

  /** The ids of the table entries, in table order. */
  const TableIds: seq<string> := ["IR-001", "IR-002", "IR-003", "IR-004", "IR-005", "IR-006", "IR-007",
    "IR-008", "IR-009", "IR-010", "IR-101", "IR-102", "IR-103", "IR-201"]

  /** No two entries share an id, so a look-up by id finds the one entry carrying it. */
  lemma TableIdsDistinct(now: int)
    ensures DistinctIds(Products(now))
  {
    var ps := Products(now);
    assert forall k :: 0 <= k < |ps| ==> ps[k].id == TableIds[k];
    IdsDistinct();
  }

  /** The fourteen ids are pairwise different. */
  lemma IdsDistinct()
    ensures forall i, j :: 0 <= i < j < |TableIds| ==> TableIds[i] != TableIds[j]
  {
  }

  /** `getNewProducts(days)`: the products with a launch date no earlier than `days` days
      before `now`, in catalog order. */
  function NewProducts(ps: seq<Product>, now: int, days: int): (r: seq<Product>)
    ensures forall k :: 0 <= k < |r| ==> r[k] in ps && LaunchedSince(r[k], Threshold(now, days))
    ensures forall k :: 0 <= k < |ps| && LaunchedSince(ps[k], Threshold(now, days)) ==> ps[k] in r
    ensures IsSubseq(r, ps)
  {
    Filter(ps, LaunchedSinceTest(Threshold(now, days)))
  }

  function FeaturedTest(): Product -> bool
  {
    (p: Product) => IsFeatured(p)
  }

  /** `getFeaturedProducts`: the products whose launch info marks them featured, in catalog order. */
  function FeaturedProducts(ps: seq<Product>): (r: seq<Product>)
    ensures forall k :: 0 <= k < |r| ==> r[k] in ps && IsFeatured(r[k])
    ensures forall k :: 0 <= k < |ps| && IsFeatured(ps[k]) ==> ps[k] in r
    ensures IsSubseq(r, ps)
  {
    Filter(ps, FeaturedTest())
  }

  datatype Stats = Stats(
    total: nat,
    mainModules: nat,
    extensionKits: nat,
    newProducts: nat,
    averagePrice: Option<int>,
    madeInPakistan: nat)

  function MadeInPakistanTest(): Product -> bool
  {
    (p: Product) => p.madeInPakistan
  }

  /** `getStats`: the counts, the products new within 30 days, and the rounded mean price
      (`None` for an empty table, where the script divides by zero). */
  function GetStats(ps: seq<Product>, now: int): Stats
  {
    Stats(
      |ps|,
      |InCategory(ps, "main")|,
      |InCategory(ps, "extension")|,
      |NewProducts(ps, now, 30)|,
      if ps == [] then None else Some(RoundedQuotient(PriceSum(ps), |ps|)),
      |Filter(ps, MadeInPakistanTest())|)
  }

  /** The statistics agree with the helpers and with each other: main modules and extension
      kits are disjoint parts of the table, and the average is the mean price rounded. */
  lemma {:induction false} StatsConsistent(ps: seq<Product>, now: int)
    ensures var st := GetStats(ps, now);
      && st.total == |ps|
      && st.mainModules + st.extensionKits <= st.total
      && st.newProducts <= st.total
      && st.madeInPakistan <= st.total
      && (st.averagePrice.None? <==> ps == [])
      && (st.averagePrice.Some? ==> st.averagePrice.value == RoundedQuotient(PriceSum(ps), |ps|))
  {
    var main, extension := CategoryIs("main"), CategoryIs("extension");
    forall k | 0 <= k < |ps|
      ensures !(main(ps[k]) && extension(ps[k]))
    {
    }
    CountDisjoint(ps, main, extension);
    assert Count(ps, main) == |InCategory(ps, "main")|;
    assert Count(ps, extension) == |InCategory(ps, "extension")|;
  }
}

=== FILE: query.dfy ===
/** The catalog query pipeline of the storefront controller: category, search and price
    filters applied in that order, followed by one of six stable sorts. */
module Query {
  import opened Common
  import opened Text
  import opened Sorting
  import opened Catalog

  datatype PriceRange = PriceRange(min: int, max: int)

  /** The category filter: 'new' and 'premium' are pseudo-categories; any other name
      must equal the product's category exactly. A missing price is not premium. */
  predicate KeepsCategory(p: Product, category: string)
  {
    if category == "new" then IsMarkedNew(p)
    else if category == "premium" then PriceOrZero(p) > 4000
    else p.category == Some(category)
  }

  function CategoryTest(category: string): Product -> bool
  {
    (p: Product) => KeepsCategory(p, category)
  }

  function FilterByCategory(ps: seq<Product>, category: string): (r: seq<Product>)
    ensures forall k :: 0 <= k < |r| ==> r[k] in ps && KeepsCategory(r[k], category)
    ensures forall k :: 0 <= k < |ps| && KeepsCategory(ps[k], category) ==> ps[k] in r
    ensures IsSubseq(r, ps)
  {
    Filter(ps, CategoryTest(category))
  }

  /** The lower-cased search term occurs in the lower-cased name, specialty, description,
      one of the features or one of the tags. */
  predicate MatchesSearch(p: Product, term: string)
  {
    || Includes(ToLower(p.name), term)
    || Includes(ToLower(p.specialty), term)
    || (p.description.Some? && Includes(ToLower(p.description.value), term))
    || (exists i | 0 <= i < |p.features| :: Includes(ToLower(p.features[i]), term))
    || (exists i | 0 <= i < |p.tags| :: Includes(ToLower(p.tags[i]), term))
  }

  function SearchTest(query: string): Product -> bool
  {
    (p: Product) => MatchesSearch(p, ToLower(query))
  }

  function FilterBySearch(ps: seq<Product>, query: string): (r: seq<Product>)
    ensures forall k :: 0 <= k < |r| ==> r[k] in ps && MatchesSearch(r[k], ToLower(query))
    ensures forall k :: 0 <= k < |ps| && MatchesSearch(ps[k], ToLower(query)) ==> ps[k] in r
    ensures IsSubseq(r, ps)
  {
    Filter(ps, SearchTest(query))
  }

  /** The price, with a missing one read as 0, lies in [min, max], both ends included. */
  predicate InPriceRange(p: Product, min: int, max: int)
  {
    min <= PriceOrZero(p) <= max
  }

  function PriceTest(min: int, max: int): Product -> bool
  {
    (p: Product) => InPriceRange(p, min, max)
  }

  function FilterByPrice(ps: seq<Product>, min: int, max: int): (r: seq<Product>)
    ensures forall k :: 0 <= k < |r| ==> r[k] in ps && min <= PriceOrZero(r[k]) <= max
    ensures forall k :: 0 <= k < |ps| && min <= PriceOrZero(ps[k]) <= max ==> ps[k] in r
    ensures IsSubseq(r, ps)
  {
    Filter(ps, PriceTest(min, max))
  }

  /** The empty search term matches every product (the name contains it). */
  lemma {:induction false} SearchEmptyKeepsAll(ps: seq<Product>)
    ensures FilterBySearch(ps, "") == ps
  {
    forall k | 0 <= k < |ps|
      ensures SearchTest("")(ps[k])
    {
      IncludesEmpty(ToLower(ps[k].name));
    }
    FilterAll(ps, SearchTest(""));
  }

  /** The search ignores the case of the query. */
  lemma {:induction false} SearchIgnoresCase(ps: seq<Product>, query: string)
    ensures FilterBySearch(ps, ToLower(query)) == FilterBySearch(ps, query)
  {
    ToLowerIdempotent(query);
  }

  lemma {:induction false} MatchesSearchPrefix(p: Product, a: string, b: string)
    requires MatchesSearch(p, a + b)
    ensures MatchesSearch(p, a)
  {
    if Includes(ToLower(p.name), a + b) {
      IncludesPrefix(ToLower(p.name), a, b);
    } else if Includes(ToLower(p.specialty), a + b) {
      IncludesPrefix(ToLower(p.specialty), a, b);
    } else if p.description.Some? && Includes(ToLower(p.description.value), a + b) {
      IncludesPrefix(ToLower(p.description.value), a, b);
    } else if exists i | 0 <= i < |p.features| :: Includes(ToLower(p.features[i]), a + b) {
      var i :| 0 <= i < |p.features| && Includes(ToLower(p.features[i]), a + b);
      IncludesPrefix(ToLower(p.features[i]), a, b);
    } else {
      var i :| 0 <= i < |p.tags| && Includes(ToLower(p.tags[i]), a + b);
      IncludesPrefix(ToLower(p.tags[i]), a, b);
    }
  }

  /** Typing more characters into the search box only narrows the result, in order. */
  lemma {:induction false} SearchNarrows(ps: seq<Product>, query: string, more: string)
    ensures IsSubseq(FilterBySearch(ps, query + more), FilterBySearch(ps, query))
  {
    ToLowerAppend(query, more);
    forall k | 0 <= k < |ps| && SearchTest(query + more)(ps[k])
      ensures SearchTest(query)(ps[k])
    {
      MatchesSearchPrefix(ps[k], ToLower(query), ToLower(more));
    }
    FilterMonotone(ps, SearchTest(query + more), SearchTest(query));
  }

  /** An inverted price range selects nothing. */
  lemma EmptyPriceRange(ps: seq<Product>, min: int, max: int)
    requires min > max
    ensures FilterByPrice(ps, min, max) == []
  {
  }

  /** Filtering a second time by the same category changes nothing. */
  lemma CategoryFilterIdempotent(ps: seq<Product>, category: string)
    ensures FilterByCategory(FilterByCategory(ps, category), category) == FilterByCategory(ps, category)
  {
    FilterIdempotent(ps, CategoryTest(category));
  }

  /** The comparator of each sort key; 0 for a key the controller does not know. */
  function Compare(sortType: string, a: Product, b: Product): int
  {
    if sortType == "newest" then DateOrEpoch(b) - DateOrEpoch(a)
    else if sortType == "price-asc" then PriceOrZero(a) - PriceOrZero(b)
    else if sortType == "price-desc" then PriceOrZero(b) - PriceOrZero(a)
    else if sortType == "name-asc" then LocaleCompare(a.name, b.name)
    else if sortType == "name-desc" then LocaleCompare(b.name, a.name)
    else if sortType == "popular" then PopularityOrZero(b) - PopularityOrZero(a)
    else 0
  }

  predicate KnownSort(sortType: string)
  {
    sortType in ["newest", "price-asc", "price-desc", "name-asc", "name-desc", "popular"]
  }

  /** `a` may stay before `b`: the comparator does not ask for a swap. */
  function Precedes(sortType: string): (Product, Product) -> bool
  {
    (a: Product, b: Product) => Compare(sortType, a, b) <= 0
  }

  /** Every comparator of the controller is a total preorder. */
  lemma {:induction false} PrecedesIsPreorder(sortType: string)
    ensures TotalPreorder(Precedes(sortType))
  {
    var le := Precedes(sortType);
    if sortType == "name-asc" || sortType == "name-desc" {
      forall a: Product, b: Product
        ensures le(a, b) || le(b, a)
      {
        LocaleCompareIsPreorder(a.name, b.name, b.name);
      }
      forall a: Product, b: Product, c: Product | le(a, b) && le(b, c)
        ensures le(a, c)
      {
        if sortType == "name-asc" {
          LocaleCompareIsPreorder(a.name, b.name, c.name);
        } else {
          LocaleCompareIsPreorder(c.name, b.name, a.name);
        }
      }
    }
  }

  /** `sortProducts`: a sorted copy for a known key, an unchanged copy otherwise. */
  function SortProducts(ps: seq<Product>, sortType: string): (r: seq<Product>)
    ensures !KnownSort(sortType) ==> r == ps
  {
    if KnownSort(sortType) then Sort(ps, Precedes(sortType)) else ps
  }

  /** The sorted copy holds the same products, each as often; each sort key promises an
      order of the result. */
  lemma {:induction false} SortProductsOrder(ps: seq<Product>, sortType: string)
    ensures var r := SortProducts(ps, sortType);
      && multiset(r) == multiset(ps)
      && (sortType == "newest" ==> forall i, j :: 0 <= i < j < |r| ==> DateOrEpoch(r[i]) >= DateOrEpoch(r[j]))
      && (sortType == "price-asc" ==> forall i, j :: 0 <= i < j < |r| ==> PriceOrZero(r[i]) <= PriceOrZero(r[j]))
      && (sortType == "price-desc" ==> forall i, j :: 0 <= i < j < |r| ==> PriceOrZero(r[i]) >= PriceOrZero(r[j]))
      && (sortType == "name-asc" ==> forall i, j :: 0 <= i < j < |r| ==> LocaleCompare(r[i].name, r[j].name) <= 0)
      && (sortType == "name-desc" ==> forall i, j :: 0 <= i < j < |r| ==> LocaleCompare(r[j].name, r[i].name) <= 0)
      && (sortType == "popular" ==> forall i, j :: 0 <= i < j < |r| ==> PopularityOrZero(r[i]) >= PopularityOrZero(r[j]))
  {
    if KnownSort(sortType) {
      var r := SortProducts(ps, sortType);
      SortMultiset(ps, Precedes(sortType));
      PrecedesIsPreorder(sortType);
      SortSorted(ps, Precedes(sortType));
      assert Sorted(r, Precedes(sortType));
      forall i, j | 0 <= i < j < |r|
        ensures Compare(sortType, r[i], r[j]) <= 0
      {
        assert Precedes(sortType)(r[i], r[j]);
      }
    }
  }

  /** Products the comparator cannot tell apart keep their relative order. */
  lemma {:induction false} SortProductsStable(ps: seq<Product>, sortType: string, y: Product)
    ensures Ties(SortProducts(ps, sortType), y, Precedes(sortType)) == Ties(ps, y, Precedes(sortType))
  {
    if KnownSort(sortType) {
      PrecedesIsPreorder(sortType);
      SortStable(ps, y, Precedes(sortType));
    }
  }

  /** Sorting an already sorted list again changes nothing. */
  lemma {:induction false} SortProductsIdempotent(ps: seq<Product>, sortType: string)
    ensures SortProducts(SortProducts(ps, sortType), sortType) == SortProducts(ps, sortType)
  {
    if KnownSort(sortType) {
      PrecedesIsPreorder(sortType);
      SortSorted(ps, Precedes(sortType));
      SortOfSorted(Sort(ps, Precedes(sortType)), Precedes(sortType));
    }
  }

  /** The three filters in the controller's order; each one is skipped when inactive
      ('all' categories, a query that is blank once trimmed, no price range). */
  function Narrow(ps: seq<Product>, category: string, query: string, priceRange: Option<PriceRange>): seq<Product>
  {
    var byCategory := if category != "all" then FilterByCategory(ps, category) else ps;
    var bySearch := if !Blank(query) then FilterBySearch(byCategory, query) else byCategory;
    if priceRange.Some? then FilterByPrice(bySearch, priceRange.value.min, priceRange.value.max) else bySearch
  }

  /** `applyFilters`: the narrowed list in the order of the sort key. */
  function ApplyFilters(ps: seq<Product>, category: string, query: string, priceRange: Option<PriceRange>,
                        sortType: string): seq<Product>
  {
    SortProducts(Narrow(ps, category, query, priceRange), sortType)
  }

  predicate PassesCategory(p: Product, category: string)
  {
    category == "all" || KeepsCategory(p, category)
  }

  predicate PassesSearch(p: Product, query: string)
  {
    Blank(query) || MatchesSearch(p, ToLower(query))
  }

  predicate PassesPrice(p: Product, priceRange: Option<PriceRange>)
  {
    priceRange.None? || InPriceRange(p, priceRange.value.min, priceRange.value.max)
  }

  /** The product passes every active filter. */
  predicate Selected(p: Product, category: string, query: string, priceRange: Option<PriceRange>)
  {
    PassesCategory(p, category) && PassesSearch(p, query) && PassesPrice(p, priceRange)
  }

  function SelectionTest(category: string, query: string, priceRange: Option<PriceRange>): Product -> bool
  {
    (p: Product) => Selected(p, category, query, priceRange)
  }

  function CategoryGate(category: string): Product -> bool
  {
    (p: Product) => PassesCategory(p, category)
  }

  function SearchGate(query: string): Product -> bool
  {
    (p: Product) => PassesSearch(p, query)
  }

  function PriceGate(priceRange: Option<PriceRange>): Product -> bool
  {
    (p: Product) => PassesPrice(p, priceRange)
  }

  lemma {:induction false} CategoryStage(ps: seq<Product>, category: string)
    ensures (if category != "all" then FilterByCategory(ps, category) else ps) == Filter(ps, CategoryGate(category))
  {
    if category != "all" {
      FilterCongruent(ps, CategoryTest(category), CategoryGate(category));
    } else {
      FilterAll(ps, CategoryGate(category));
    }
  }

  lemma {:induction false} SearchStage(ps: seq<Product>, query: string)
    ensures (if !Blank(query) then FilterBySearch(ps, query) else ps) == Filter(ps, SearchGate(query))
  {
    if !Blank(query) {
      FilterCongruent(ps, SearchTest(query), SearchGate(query));
    } else {
      FilterAll(ps, SearchGate(query));
    }
  }

  lemma {:induction false} PriceStage(ps: seq<Product>, priceRange: Option<PriceRange>)
    ensures (if priceRange.Some? then FilterByPrice(ps, priceRange.value.min, priceRange.value.max) else ps)
            == Filter(ps, PriceGate(priceRange))
  {
    if priceRange.Some? {
      FilterCongruent(ps, PriceTest(priceRange.value.min, priceRange.value.max), PriceGate(priceRange));
    } else {
      FilterAll(ps, PriceGate(priceRange));
    }
  }

  /** Each skipped stage is a filter whose test always passes. */
  lemma {:induction false} NarrowAsFilters(ps: seq<Product>, category: string, query: string,
                                          priceRange: Option<PriceRange>)
    ensures Narrow(ps, category, query, priceRange)
            == Filter(Filter(Filter(ps, CategoryGate(category)), SearchGate(query)), PriceGate(priceRange))
  {
    CategoryStage(ps, category);
    var a := Filter(ps, CategoryGate(category));
    SearchStage(a, query);
    PriceStage(Filter(a, SearchGate(query)), priceRange);
  }

  lemma {:induction false} FiltersCompose(ps: seq<Product>, category: string, query: string,
                                         priceRange: Option<PriceRange>)
    ensures Filter(Filter(Filter(ps, CategoryGate(category)), SearchGate(query)), PriceGate(priceRange))
            == Filter(ps, SelectionTest(category, query, priceRange))
  {
    var f1, f2, f3 := CategoryGate(category), SearchGate(query), PriceGate(priceRange);
    FilterFilter(ps, f1, f2);
    FilterFilter(ps, Both(f1, f2), f3);
    FilterCongruent(ps, Both(Both(f1, f2), f3), SelectionTest(category, query, priceRange));
  }

  /** Applying the filters one after another is one filter with all active tests. */
  lemma {:induction false} NarrowIsFilter(ps: seq<Product>, category: string, query: string,
                                         priceRange: Option<PriceRange>)
    ensures Narrow(ps, category, query, priceRange) == Filter(ps, SelectionTest(category, query, priceRange))
  {
    NarrowAsFilters(ps, category, query, priceRange);
    FiltersCompose(ps, category, query, priceRange);
  }

  /** The listing is a reordering of the selected products, each as often as in the catalog. */
  lemma {:induction false} ApplyFiltersPermutes(ps: seq<Product>, category: string, query: string,
                                               priceRange: Option<PriceRange>, sortType: string)
    ensures multiset(ApplyFilters(ps, category, query, priceRange, sortType))
            == multiset(Filter(ps, SelectionTest(category, query, priceRange)))
  {
    NarrowIsFilter(ps, category, query, priceRange);
    SortMultiset(Narrow(ps, category, query, priceRange), Precedes(sortType));
  }

  /** The listing holds a product exactly when the catalog does and it passes every active filter. */
  lemma {:induction false} ApplyFiltersSelects(ps: seq<Product>, category: string, query: string,
                                              priceRange: Option<PriceRange>, sortType: string)
    ensures var r := ApplyFilters(ps, category, query, priceRange, sortType);
      && (forall k :: 0 <= k < |r| ==> r[k] in ps && Selected(r[k], category, query, priceRange))
      && (forall k :: 0 <= k < |ps| && Selected(ps[k], category, query, priceRange) ==> ps[k] in r)
  {
    ApplyFiltersPermutes(ps, category, query, priceRange, sortType);
    PermutedFilterMembers(ApplyFilters(ps, category, query, priceRange, sortType), ps,
                          SelectionTest(category, query, priceRange));
  }

  /** The listing is in the order of a known sort key. */
  lemma {:induction false} ApplyFiltersOrdered(ps: seq<Product>, category: string, query: string,
                                              priceRange: Option<PriceRange>, sortType: string)
    requires KnownSort(sortType)
    ensures Sorted(ApplyFilters(ps, category, query, priceRange, sortType), Precedes(sortType))
  {
    PrecedesIsPreorder(sortType);
    SortSorted(Narrow(ps, category, query, priceRange), Precedes(sortType));
  }

  /** With every criterion at its default, the listing is the whole catalog, sorted. */
  lemma ApplyFiltersDefaults(ps: seq<Product>, sortType: string)
    ensures ApplyFilters(ps, "all", "", None, sortType) == SortProducts(ps, sortType)
  {
  }

  /** Before sorting, the narrowed list keeps the catalog order. */
  lemma NarrowKeepsOrder(ps: seq<Product>, category: string, query: string, priceRange: Option<PriceRange>)
    ensures IsSubseq(Narrow(ps, category, query, priceRange), ps)
  {
    NarrowIsFilter(ps, category, query, priceRange);
  }
}

=== FILE: recency.dfy ===
/** The launch classifier behind the "recent launches" section: which products count as
    recently launched and in what order, the stamps it writes onto each product, the
    summary statistics, the announcement list, and the badge and countdown of a card.
    Clock readings are passed in as millisecond timestamps. */
module Recency {
  import opened Common
  import opened Sorting
  import opened Catalog

  // ---------------------------------------------------------------- settings

  datatype Config = Config(
    recentDaysThreshold: int,
    highlightNewBadge: bool,
    showAnnouncementBanner: bool,
    maxRecentDisplay: int,
    enableAutoDetection: bool,
    promotionDays: int,
    badgeText: string,
    badgeColor: string,
    enableCountdown: bool,
    countdownDays: int)

  /** The built-in settings every instance starts from. */
  const DefaultConfig: Config := Config(30, true, true, 5, true, 7, "NEW", "#f59e0b", false, 14)

  /** A partial settings object: the keys it holds override, the others are absent. */
  datatype ConfigPatch = ConfigPatch(
    recentDaysThreshold: Option<int>,
    highlightNewBadge: Option<bool>,
    showAnnouncementBanner: Option<bool>,
    maxRecentDisplay: Option<int>,
    enableAutoDetection: Option<bool>,
    promotionDays: Option<int>,
    badgeText: Option<string>,
    badgeColor: Option<string>,
    enableCountdown: Option<bool>,
    countdownDays: Option<int>)

  const NoChanges: ConfigPatch := ConfigPatch(None, None, None, None, None, None, None, None, None, None)

  function Pick<T>(base: T, over: Option<T>): T
  {
    if over.Some? then over.value else base
  }

  /** The object spread `{ ...base, ...patch }`: each key the patch holds wins. */
  function Merge(base: Config, patch: ConfigPatch): (r: Config)
    ensures patch == NoChanges ==> r == base
    ensures r.recentDaysThreshold == (if patch.recentDaysThreshold.Some? then patch.recentDaysThreshold.value else base.recentDaysThreshold)
    ensures r.highlightNewBadge == (if patch.highlightNewBadge.Some? then patch.highlightNewBadge.value else base.highlightNewBadge)
    ensures r.showAnnouncementBanner == (if patch.showAnnouncementBanner.Some? then patch.showAnnouncementBanner.value else base.showAnnouncementBanner)
    ensures r.maxRecentDisplay == (if patch.maxRecentDisplay.Some? then patch.maxRecentDisplay.value else base.maxRecentDisplay)
    ensures r.enableAutoDetection == (if patch.enableAutoDetection.Some? then patch.enableAutoDetection.value else base.enableAutoDetection)
    ensures r.promotionDays == (if patch.promotionDays.Some? then patch.promotionDays.value else base.promotionDays)
    ensures r.badgeText == (if patch.badgeText.Some? then patch.badgeText.value else base.badgeText)
    ensures r.badgeColor == (if patch.badgeColor.Some? then patch.badgeColor.value else base.badgeColor)
    ensures r.enableCountdown == (if patch.enableCountdown.Some? then patch.enableCountdown.value else base.enableCountdown)
    ensures r.countdownDays == (if patch.countdownDays.Some? then patch.countdownDays.value else base.countdownDays)
  {
    Config(
      Pick(base.recentDaysThreshold, patch.recentDaysThreshold),
      Pick(base.highlightNewBadge, patch.highlightNewBadge),
      Pick(base.showAnnouncementBanner, patch.showAnnouncementBanner),
      Pick(base.maxRecentDisplay, patch.maxRecentDisplay),
      Pick(base.enableAutoDetection, patch.enableAutoDetection),
      Pick(base.promotionDays, patch.promotionDays),
      Pick(base.badgeText, patch.badgeText),
      Pick(base.badgeColor, patch.badgeColor),
      Pick(base.enableCountdown, patch.enableCountdown),
      Pick(base.countdownDays, patch.countdownDays))
  }

  function Later<T>(first: Option<T>, second: Option<T>): Option<T>
  {
    if second.Some? then second else first
  }

  /** The patch holding the keys of both, `second` winning where both hold one. */
  function Compose(first: ConfigPatch, second: ConfigPatch): ConfigPatch
  {
    ConfigPatch(
      Later(first.recentDaysThreshold, second.recentDaysThreshold),
      Later(first.highlightNewBadge, second.highlightNewBadge),
      Later(first.showAnnouncementBanner, second.showAnnouncementBanner),
      Later(first.maxRecentDisplay, second.maxRecentDisplay),
      Later(first.enableAutoDetection, second.enableAutoDetection),
      Later(first.promotionDays, second.promotionDays),
      Later(first.badgeText, second.badgeText),
      Later(first.badgeColor, second.badgeColor),
      Later(first.enableCountdown, second.enableCountdown),
      Later(first.countdownDays, second.countdownDays))
  }

  /** Two updates in a row amount to one update with both patches, the later one winning;
      in particular applying the same update twice changes nothing more. */
  lemma MergeCompose(base: Config, first: ConfigPatch, second: ConfigPatch)
    ensures Merge(Merge(base, first), second) == Merge(base, Compose(first, second))
    ensures Merge(Merge(base, first), first) == Merge(base, first)
  {
  }

  // ---------------------------------------------------------------- detection

  /** The comparator `(a, b) => date(b) - date(a)`: `a` may stay before `b` when it was
      launched no earlier. */
  function NewestFirst(): (Product, Product) -> bool
  {
    (a: Product, b: Product) => DateOrEpoch(b) <= DateOrEpoch(a)
  }

  lemma NewestFirstIsPreorder()
    ensures TotalPreorder(NewestFirst())
  {
  }

  /** The products launched at or after `threshold`, newest first (`detectRecentLaunches`,
      and `getProductsByRecency` with its own threshold). */
  function Launched(ps: seq<Product>, threshold: int): seq<Product>
  {
    Sort(Filter(ps, LaunchedSinceTest(threshold)), NewestFirst())
  }

  /** Exactly the products with a launch date no earlier than the threshold, each as often
      as in the catalog. */
  lemma {:induction false} LaunchedMembers(ps: seq<Product>, threshold: int)
    ensures var r := Launched(ps, threshold);
      && multiset(r) == multiset(Filter(ps, LaunchedSinceTest(threshold)))
      && (forall p :: p in r <==> p in ps && LaunchedSince(p, threshold))
  {
    var kept := Filter(ps, LaunchedSinceTest(threshold));
    var r := Launched(ps, threshold);
    SortMultiset(kept, NewestFirst());
    forall p
      ensures p in r <==> p in ps && LaunchedSince(p, threshold)
    {
      calc {
        p in r;
        p in multiset(r);
        p in multiset(kept);
        p in kept;
      }
      if p in kept {
        var k :| 0 <= k < |kept| && kept[k] == p;
      }
      if p in ps && LaunchedSince(p, threshold) {
        var k :| 0 <= k < |ps| && ps[k] == p;
      }
    }
  }

  /** Newest first: every listed product has a launch date, none earlier than the next. */
  lemma {:induction false} LaunchedOrder(ps: seq<Product>, threshold: int)
    ensures var r := Launched(ps, threshold);
      && (forall k :: 0 <= k < |r| ==> LaunchedSince(r[k], threshold))
      && (forall i, j :: 0 <= i < j < |r| ==> DateOrEpoch(r[j]) <= DateOrEpoch(r[i]))
  {
    var r := Launched(ps, threshold);
    LaunchedMembers(ps, threshold);
    NewestFirstIsPreorder();
    SortSorted(Filter(ps, LaunchedSinceTest(threshold)), NewestFirst());
    forall k | 0 <= k < |r|
      ensures LaunchedSince(r[k], threshold)
    {
      assert r[k] in r;
    }
    forall i, j | 0 <= i < j < |r|
      ensures DateOrEpoch(r[j]) <= DateOrEpoch(r[i])
    {
      assert NewestFirst()(r[i], r[j]);
    }
  }

  /** Products launched at the same instant keep their catalog order. */
  lemma {:induction false} LaunchedStable(ps: seq<Product>, threshold: int, y: Product)
    ensures Ties(Launched(ps, threshold), y, NewestFirst())
         == Ties(Filter(ps, LaunchedSinceTest(threshold)), y, NewestFirst())
  {
    NewestFirstIsPreorder();
    SortStable(Filter(ps, LaunchedSinceTest(threshold)), y, NewestFirst());
  }

  // ---------------------------------------------------------------- stamping

  /** What `markNewProducts` writes onto a product with a launch date: `isNew` by the
      recency threshold taken at `now`, whole days since launch counted from `currentDate`,
      and `hasPromotion` by the promotion threshold when a promotion period is set. */
  function Stamp(p: Product, now: int, currentDate: int, config: Config): Product
  {
    if LaunchDate(p).Some? then
      var launch := LaunchDate(p).value;
      var info := p.launchInfo.value;
      p.(launchInfo := Some(info.(
        isNew := launch >= Threshold(now, config.recentDaysThreshold),
        daysSinceLaunch := Some((currentDate - launch) / DayMs),
        hasPromotion :=
          if config.promotionDays > 0 then launch >= Threshold(now, config.promotionDays)
          else info.hasPromotion)))
    else p
  }

  function StampWith(now: int, currentDate: int, config: Config): Product -> Product
  {
    (p: Product) => Stamp(p, now, currentDate, config)
  }

  /** Products without a launch date are left alone; on the others only `isNew`,
      `daysSinceLaunch` and `hasPromotion` change: the product is new exactly when it passes
      the recency threshold, the day count is the whole number of days elapsed, and a set
      promotion period decides `hasPromotion` by its own threshold. */
  lemma {:induction false} StampSpec(p: Product, now: int, currentDate: int, config: Config)
    ensures var r := Stamp(p, now, currentDate, config);
      && LaunchDate(r) == LaunchDate(p)
      && r.(launchInfo := p.launchInfo) == p
      && (LaunchDate(p).None? ==> r == p)
      && (LaunchDate(p).Some? ==>
            var launch, info := LaunchDate(p).value, r.launchInfo.value;
            && (IsMarkedNew(r) <==> LaunchedSince(p, Threshold(now, config.recentDaysThreshold)))
            && info.daysSinceLaunch.Some?
            && info.daysSinceLaunch.value * DayMs <= currentDate - launch < (info.daysSinceLaunch.value + 1) * DayMs
            && (config.promotionDays > 0 ==> (info.hasPromotion <==> launch >= Threshold(now, config.promotionDays)))
            && (config.promotionDays <= 0 ==> info.hasPromotion == p.launchInfo.value.hasPromotion)
            && info.isFeatured == p.launchInfo.value.isFeatured
            && info.popularity == p.launchInfo.value.popularity
            && info.launchPromotion == p.launchInfo.value.launchPromotion)
  {
    if LaunchDate(p).Some? {
      var days := (currentDate - LaunchDate(p).value) / DayMs;
      assert days * DayMs <= currentDate - LaunchDate(p).value < (days + 1) * DayMs;
    }
  }

  /** `markNewProducts` over a list. */
  function StampAll(ps: seq<Product>, now: int, currentDate: int, config: Config): seq<Product>
  {
    Map(ps, StampWith(now, currentDate, config))
  }

  /** Stamping leaves the launch date, and so the detection, alone: detecting on stamped
      products gives the stamped detection. This is why stamping the catalog also stamps
      the products already listed as recent, which are the same objects. */
  lemma {:induction false} LaunchedStampAll(ps: seq<Product>, threshold: int, now: int, currentDate: int, config: Config)
    ensures Launched(StampAll(ps, now, currentDate, config), threshold)
         == StampAll(Launched(ps, threshold), now, currentDate, config)
  {
    var f := StampWith(now, currentDate, config);
    forall x
      ensures LaunchedSinceTest(threshold)(f(x)) == LaunchedSinceTest(threshold)(x)
    {
      StampSpec(x, now, currentDate, config);
    }
    forall a, b
      ensures NewestFirst()(f(a), f(b)) == NewestFirst()(a, b)
    {
      StampSpec(a, now, currentDate, config);
      StampSpec(b, now, currentDate, config);
    }
    FilterMap(ps, f, LaunchedSinceTest(threshold));
    SortMap(Filter(ps, LaunchedSinceTest(threshold)), NewestFirst(), f);
  }

  /** With one clock reading for both, a stamped catalog product is marked new exactly when
      it is among the detected recent products; undated products are untouched. */
  lemma {:induction false} MarkedNewIffRecent(ps: seq<Product>, k: int, now: int, config: Config)
    requires 0 <= k < |ps| && LaunchDate(ps[k]).Some?
    ensures var threshold := Threshold(now, config.recentDaysThreshold);
      IsMarkedNew(StampAll(ps, now, now, config)[k]) <==> ps[k] in Launched(ps, threshold)
  {
    StampSpec(ps[k], now, now, config);
    LaunchedMembers(ps, Threshold(now, config.recentDaysThreshold));
  }

  // ---------------------------------------------------------------- statistics

  /** `product.category || 'uncategorized'`. */
  function CategoryKey(p: Product): string
  {
    TextOr(p.category, "uncategorized")
  }

  function KeyIs(key: string): Product -> bool
  {
    (p: Product) => CategoryKey(p) == key
  }

  /** `counts[key] = (counts[key] || 0) + 1`. */
  function Tally(counts: map<string, nat>, key: string): map<string, nat>
  {
    counts[key := (if key in counts then counts[key] else 0) + 1]
  }

  /** The per-category counts `calculateStats` builds, product by product. */
  function CategoryCounts(s: seq<Product>): map<string, nat>
  {
    if s == [] then map[] else Tally(CategoryCounts(s[..|s| - 1]), CategoryKey(s[|s| - 1]))
  }

  /** The keys of the category table in the order they were first added, the order
      `Object.keys` lists them in. */
  function CategoryOrder(s: seq<Product>): seq<string>
  {
    if s == [] then []
    else
      var keys, key := CategoryOrder(s[..|s| - 1]), CategoryKey(s[|s| - 1]);
      if key in keys then keys else keys + [key]
  }

  /** The sum of the counts listed under `keys`. */
  function SumOver(counts: map<string, nat>, keys: seq<string>): int
  {
    if keys == [] then 0
    else SumOver(counts, keys[..|keys| - 1]) + (if keys[|keys| - 1] in counts then counts[keys[|keys| - 1]] else 0)
  }

  /** The key list names every key of the table once. */
  lemma {:induction false} CategoryOrderSpec(s: seq<Product>)
    ensures NoDuplicates(CategoryOrder(s))
    ensures forall key :: key in CategoryOrder(s) <==> key in CategoryCounts(s)
  {
    if s != [] {
      CategoryOrderSpec(s[..|s| - 1]);
    }
  }

  lemma {:induction false} SumOverTally(counts: map<string, nat>, keys: seq<string>, key: string)
    requires NoDuplicates(keys)
    ensures SumOver(Tally(counts, key), keys) == SumOver(counts, keys) + (if key in keys then 1 else 0)
  {
    if keys != [] {
      var rest := keys[..|keys| - 1];
      assert NoDuplicates(rest);
      SumOverTally(counts, rest, key);
      assert key in keys <==> key in rest || key == keys[|keys| - 1];
      if key == keys[|keys| - 1] {
        assert key !in rest;
      }
    }
  }

  /** Adding a key the list does not hold adds its count. */
  lemma {:induction false} SumOverSnoc(counts: map<string, nat>, keys: seq<string>, key: string)
    ensures SumOver(counts, keys + [key]) == SumOver(counts, keys) + (if key in counts then counts[key] else 0)
  {
    assert (keys + [key])[..|keys|] == keys;
  }

  /** Summed over `Object.keys`, the counts add up to the number of products counted. */
  lemma {:induction false} CategoryCountsSum(s: seq<Product>)
    ensures SumOver(CategoryCounts(s), CategoryOrder(s)) == |s|
  {
    if s != [] {
      var s', key := s[..|s| - 1], CategoryKey(s[|s| - 1]);
      var counts, keys := CategoryCounts(s'), CategoryOrder(s');
      CategoryCountsSum(s');
      CategoryOrderSpec(s');
      SumOverTally(counts, keys, key);
      if key !in keys {
        SumOverSnoc(Tally(counts, key), keys, key);
      }
    }
  }

  /** The table's keys are the category keys of the counted products. */
  lemma {:induction false} CategoryCountsKeys(s: seq<Product>)
    ensures forall key :: key in CategoryCounts(s) <==> key in Map(s, CategoryKey)
  {
    if s != [] {
      var s' := s[..|s| - 1];
      CategoryCountsKeys(s');
      assert s == s' + [s[|s| - 1]];
      MapAppend(s', [s[|s| - 1]], CategoryKey);
      assert Map(s, CategoryKey) == Map(s', CategoryKey) + [CategoryKey(s[|s| - 1])];
    }
  }

  /** Each key is counted once per product carrying it. */
  lemma {:induction false} CategoryCountsValue(s: seq<Product>, key: string)
    requires key in CategoryCounts(s)
    ensures CategoryCounts(s)[key] == Count(s, KeyIs(key))
  {
    var s', last := s[..|s| - 1], s[|s| - 1];
    assert s == s' + [last];
    FilterAppend(s', [last], KeyIs(key));
    var before := CategoryCounts(s');
    if key in before {
      CategoryCountsValue(s', key);
    } else {
      CategoryCountsKeys(s');
    }
  }

  /** `Math.min` over the prices, starting from Infinity (`None`). */
  function MinPrice(s: seq<Product>): Option<int>
  {
    if s == [] then None
    else
      var m, x := MinPrice(s[..|s| - 1]), PriceOrZero(s[|s| - 1]);
      Some(if m.Some? && m.value <= x then m.value else x)
  }

  /** `Math.max` over the prices, starting from 0. */
  function MaxPrice(s: seq<Product>): int
  {
    if s == [] then 0
    else
      var m, x := MaxPrice(s[..|s| - 1]), PriceOrZero(s[|s| - 1]);
      if m < x then x else m
  }

  /** For a non-empty list the range is the least and the greatest price (the greatest not
      below 0, where the running maximum starts). */
  lemma {:induction false} PriceRangeSpec(s: seq<Product>)
    requires s != []
    ensures MinPrice(s).Some?
    ensures forall k :: 0 <= k < |s| ==> MinPrice(s).value <= PriceOrZero(s[k]) <= MaxPrice(s)
    ensures exists k :: 0 <= k < |s| && PriceOrZero(s[k]) == MinPrice(s).value
    ensures 0 <= MaxPrice(s)
    ensures MaxPrice(s) == 0 || exists k :: 0 <= k < |s| && PriceOrZero(s[k]) == MaxPrice(s)
  {
    var s', last := s[..|s| - 1], s[|s| - 1];
    if s' != [] {
      PriceRangeSpec(s');
      forall k | 0 <= k < |s'|
        ensures s[k] == s'[k]
      {
      }
      var j :| 0 <= j < |s'| && PriceOrZero(s'[j]) == MinPrice(s').value;
      assert s[j] == s'[j];
      if MaxPrice(s') != 0 {
        var i :| 0 <= i < |s'| && PriceOrZero(s'[i]) == MaxPrice(s');
        assert s[i] == s'[i];
      }
    }
    assert PriceOrZero(s[|s| - 1]) == PriceOrZero(last);
  }

  /** Prices within [lo, hi] sum to between n * lo and n * hi. */
  lemma {:induction false} PriceSumBounds(s: seq<Product>, lo: int, hi: int)
    requires forall k :: 0 <= k < |s| ==> lo <= PriceOrZero(s[k]) <= hi
    ensures |s| * lo <= PriceSum(s) <= |s| * hi
  {
    if s != [] {
      var s' := s[..|s| - 1];
      assert forall k :: 0 <= k < |s'| ==> s'[k] == s[k];
      PriceSumBounds(s', lo, hi);
      assert |s| * lo == |s'| * lo + lo && |s| * hi == |s'| * hi + hi;
    }
  }

  /** The rounded average lies within the price range. */
  lemma {:induction false} AverageInRange(s: seq<Product>)
    requires s != []
    ensures MinPrice(s).value <= RoundedQuotient(PriceSum(s), |s|) <= MaxPrice(s)
  {
    PriceRangeSpec(s);
    PriceSumBounds(s, MinPrice(s).value, MaxPrice(s));
    RoundedQuotientWithin(PriceSum(s), |s|, MinPrice(s).value, MaxPrice(s));
  }

  /** One step of the single pass: extending the prefix by product `i` tallies its
      category, adds its price and widens the range. */
  lemma StatsStep(s: seq<Product>, i: int)
    requires 0 <= i < |s|
    ensures CategoryCounts(s[..i + 1]) == Tally(CategoryCounts(s[..i]), CategoryKey(s[i]))
    ensures PriceSum(s[..i + 1]) == PriceSum(s[..i]) + PriceOrZero(s[i])
    ensures MinPrice(s[..i + 1])
              == Some(if MinPrice(s[..i]).Some? && MinPrice(s[..i]).value <= PriceOrZero(s[i])
                      then MinPrice(s[..i]).value else PriceOrZero(s[i]))
    ensures MaxPrice(s[..i + 1]) == if MaxPrice(s[..i]) < PriceOrZero(s[i]) then PriceOrZero(s[i]) else MaxPrice(s[..i])
  {
    assert s[..i + 1][..i] == s[..i];
  }

  /** One line of the launch timeline. */
  datatype TimelineEntry = TimelineEntry(id: string, name: string, date: Option<int>, daysAgo: Option<int>)

  function EntryOf(p: Product): TimelineEntry
  {
    TimelineEntry(p.id, p.name, LaunchDate(p),
                  if p.launchInfo.Some? then p.launchInfo.value.daysSinceLaunch else None)
  }

  function EntryDate(e: TimelineEntry): int
  {
    if e.date.Some? then e.date.value else 0
  }

  function EntryNewestFirst(): (TimelineEntry, TimelineEntry) -> bool
  {
    (a: TimelineEntry, b: TimelineEntry) => EntryDate(b) <= EntryDate(a)
  }

  /** The timeline: one entry per product, sorted newest first. */
  function Timeline(s: seq<Product>): seq<TimelineEntry>
  {
    Sort(Map(s, EntryOf), EntryNewestFirst())
  }

  /** Over a list already newest first, as the recent products are, the timeline's sort
      changes nothing: entry k describes product k. */
  lemma {:induction false} TimelineKeepsOrder(s: seq<Product>)
    requires Sorted(s, NewestFirst())
    ensures Timeline(s) == Map(s, EntryOf)
  {
    var es := Map(s, EntryOf);
    forall i, j | 0 <= i < j < |es|
      ensures EntryNewestFirst()(es[i], es[j])
    {
      assert NewestFirst()(s[i], s[j]);
    }
    SortOfSorted(es, EntryNewestFirst());
  }

  datatype RecentStats = RecentStats(
    totalNew: int,
    byCategory: map<string, nat>,
    averagePrice: int,
    minPrice: Option<int>,
    maxPrice: int,
    launchTimeline: seq<TimelineEntry>)

  /** Extending the prefix by product `i` appends its timeline entry. */
  lemma TimelineStep(s: seq<Product>, i: int)
    requires 0 <= i < |s|
    ensures Map(s[..i + 1], EntryOf) == Map(s[..i], EntryOf) + [EntryOf(s[i])]
  {
    assert s[..i] + [s[i]] == s[..i + 1];
    MapAppend(s[..i], [s[i]], EntryOf);
  }

  /** The statistics of an empty list: no categories, average 0, the range (Infinity, 0). */
  function EmptyStats(totalNew: int): RecentStats
  {
    RecentStats(totalNew, map[], 0, None, 0, [])
  }

  /** `calculateStats` over the recent products. */
  function StatsOf(s: seq<Product>, totalNew: int): RecentStats
  {
    if s == [] then EmptyStats(totalNew)
    else RecentStats(totalNew, CategoryCounts(s), RoundedQuotient(PriceSum(s), |s|),
                     MinPrice(s), MaxPrice(s), Timeline(s))
  }

  // ---------------------------------------------------------------- announcements

  datatype Priority = Urgent | High | Normal

  /** `{ urgent: 0, high: 1, normal: 2 }`. */
  function Rank(p: Priority): int
  {
    match p
    case Urgent => 0
    case High => 1
    case Normal => 2
  }

  datatype Announcement =
    | SingleLaunch(product: Product, message: string)
    | MultipleLaunches(count: int, days: int)
    | LimitedOffer(product: Product, message: string, validUntil: Option<int>)

  function PriorityOf(a: Announcement): Priority
  {
    if a.LimitedOffer? then Urgent else High
  }

  function ByPriority(): (Announcement, Announcement) -> bool
  {
    (a: Announcement, b: Announcement) => Rank(PriorityOf(a)) <= Rank(PriorityOf(b))
  }

  /** `launchInfo?.hasPromotion && launchInfo?.launchPromotion?.active`. */
  predicate HasActivePromotion(p: Product)
  {
    && p.launchInfo.Some?
    && p.launchInfo.value.hasPromotion
    && p.launchInfo.value.launchPromotion.Some?
    && p.launchInfo.value.launchPromotion.value.active
  }

  function ActivePromotionTest(): Product -> bool
  {
    (p: Product) => HasActivePromotion(p)
  }

  /** `getPromotionalProducts`: the recent products running an active promotion. */
  function PromotionalProducts(recent: seq<Product>): (r: seq<Product>)
    ensures forall k :: 0 <= k < |r| ==> r[k] in recent && HasActivePromotion(r[k])
    ensures forall k :: 0 <= k < |recent| && HasActivePromotion(recent[k]) ==> recent[k] in r
    ensures IsSubseq(r, recent)
  {
    Filter(recent, ActivePromotionTest())
  }

  function OfferFor(p: Product): Announcement
    requires HasActivePromotion(p)
  {
    var promotion := p.launchInfo.value.launchPromotion.value;
    LimitedOffer(p, p.name + ": " + promotion.description, promotion.validUntil)
  }

  function Offers(ps: seq<Product>): (r: seq<Announcement>)
    requires forall k :: 0 <= k < |ps| ==> HasActivePromotion(ps[k])
    ensures |r| == |ps|
    ensures forall k :: 0 <= k < |r| ==> r[k].LimitedOffer? && r[k].product == ps[k]
  {
    if ps == [] then [] else Offers(ps[..|ps| - 1]) + [OfferFor(ps[|ps| - 1])]
  }

  /** Extending the prefix by promotional product `i` appends its offer. */
  lemma OffersStep(ps: seq<Product>, i: int)
    requires forall k :: 0 <= k < |ps| ==> HasActivePromotion(ps[k])
    requires 0 <= i < |ps|
    ensures Offers(ps[..i + 1]) == Offers(ps[..i]) + [OfferFor(ps[i])]
  {
    assert ps[..i + 1][..i] == ps[..i];
  }

  /** The main announcement: the single new product by name, or the number of new ones. */
  function LaunchNotice(recent: seq<Product>, config: Config): Announcement
    requires recent != []
  {
    if |recent| == 1 then SingleLaunch(recent[0], recent[0].name + " is now available")
    else MultipleLaunches(|recent|, config.recentDaysThreshold)
  }

  /** `generateAnnouncement`: nothing without new products or with the banner off;
      otherwise the main announcement followed by one offer per promotional product,
      sorted by priority. */
  function Announcements(recent: seq<Product>, config: Config): Option<seq<Announcement>>
  {
    if |recent| == 0 || !config.showAnnouncementBanner then None
    else Some(Sort([LaunchNotice(recent, config)] + Offers(PromotionalProducts(recent)), ByPriority()))
  }

  /** Sorting one high-priority entry followed by urgent ones moves it behind them. */
  lemma {:induction false} UrgentFirst(main: Announcement, offers: seq<Announcement>)
    requires PriorityOf(main) == High
    requires forall k :: 0 <= k < |offers| ==> PriorityOf(offers[k]) == Urgent
    ensures Sort([main] + offers, ByPriority()) == offers + [main]
  {
    SortMovesPast(main, offers, ByPriority());
  }

  /** The announcement list is empty exactly when nothing is new or the banner is off;
      otherwise it is every promotional offer, in the order of the recent list, followed
      by the one main announcement. So an offer comes first exactly when there is one. */
  lemma {:induction false} AnnouncementsSpec(recent: seq<Product>, config: Config)
    ensures Announcements(recent, config).None? <==> |recent| == 0 || !config.showAnnouncementBanner
    ensures Announcements(recent, config).Some? ==>
      && Announcements(recent, config).value
           == Offers(PromotionalProducts(recent)) + [LaunchNotice(recent, config)]
      && (Announcements(recent, config).value[0].LimitedOffer? <==> PromotionalProducts(recent) != [])
  {
    if |recent| != 0 && config.showAnnouncementBanner {
      UrgentFirst(LaunchNotice(recent, config), Offers(PromotionalProducts(recent)));
    }
  }

  // ---------------------------------------------------------------- cards

  datatype BadgeKind = PromotionBadge | JustLaunchedBadge | DefaultBadge(text: string)

  /** The badge of a recent product's card, and the "N d ago" count shown beside it. */
  datatype Badge = Badge(kind: BadgeKind, daysAgo: Option<int>)

  /** Launched at most 14 days ago by the stamped day count (a missing count is not). */
  predicate JustLaunched(info: LaunchInfo)
  {
    info.daysSinceLaunch.Some? && info.daysSinceLaunch.value <= 14
  }

  /** The badge choice of `generateProductCardHTML`: a promotion wins over "just launched",
      which wins over the configured text. */
  function BadgeFor(p: Product, config: Config): Badge
    requires p.launchInfo.Some?
  {
    var info := p.launchInfo.value;
    Badge(if info.hasPromotion then PromotionBadge
          else if JustLaunched(info) then JustLaunchedBadge
          else DefaultBadge(config.badgeText),
          if JustLaunched(info) then info.daysSinceLaunch else None)
  }

  /** On a product stamped with one clock reading and a promotion period set, the badge
      follows the launch date alone: a promotion inside the period, "just launched" within
      15 days, and the configured text after that. */
  lemma {:induction false} BadgeOfStamped(p: Product, now: int, config: Config)
    requires LaunchDate(p).Some? && config.promotionDays > 0
    ensures var b, launch := BadgeFor(Stamp(p, now, now, config), config), LaunchDate(p).value;
      && (b.kind == PromotionBadge <==> launch >= Threshold(now, config.promotionDays))
      && (b.daysAgo.Some? <==> now - launch < 15 * DayMs)
      && (b.kind == JustLaunchedBadge <==> launch < Threshold(now, config.promotionDays) && now - launch < 15 * DayMs)
      && (b.kind == DefaultBadge(config.badgeText) <==> launch < Threshold(now, config.promotionDays) && now - launch >= 15 * DayMs)
  {
    StampSpec(p, now, now, config);
    var days := Stamp(p, now, now, config).launchInfo.value.daysSinceLaunch.value;
    var elapsed := now - LaunchDate(p).value;
    if days <= 14 {
      assert (days + 1) * DayMs <= 15 * DayMs;
    } else {
      assert 15 * DayMs <= days * DayMs;
    }
  }

  /** 1000 * 60 * 60: an hour in milliseconds. */
  const HourMs: int := 3_600_000

  datatype Countdown = NoCountdown | OfferExpired | EndsIn(days: int, hours: int)

  /** `launchInfo?.launchPromotion?.validUntil`, when present. */
  function PromotionEnd(p: Product): Option<int>
  {
    if p.launchInfo.Some? && p.launchInfo.value.launchPromotion.Some? then
      p.launchInfo.value.launchPromotion.value.validUntil
    else None
  }

  /** `generatePromotionCountdown`: nothing without an end date, "expired" once it is
      reached, otherwise the whole days and the whole hours left over. */
  function CountdownFor(p: Product, now: int): (c: Countdown)
    ensures c.NoCountdown? <==> PromotionEnd(p).None?
    ensures c.OfferExpired? <==> PromotionEnd(p).Some? && PromotionEnd(p).value <= now
    ensures c.EndsIn? ==>
      var left := PromotionEnd(p).value - now;
      && 0 <= c.days && 0 <= c.hours < 24
      && c.days * DayMs + c.hours * HourMs <= left < c.days * DayMs + (c.hours + 1) * HourMs
  {
    if PromotionEnd(p).None? then NoCountdown
    else
      var left := PromotionEnd(p).value - now;
      if left <= 0 then OfferExpired
      else
        var days, hours := left / DayMs, (left % DayMs) / HourMs;
        assert left == days * DayMs + left % DayMs;
        assert left % DayMs == hours * HourMs + (left % DayMs) % HourMs;
        EndsIn(days, hours)
  }

  // ---------------------------------------------------------------- queries

  /** `isProductNew`: some recent product carries the id. */
  function IsProductNew(recent: seq<Product>, id: string): (r: bool)
    ensures r <==> exists k :: 0 <= k < |recent| && recent[k].id == id
  {
    FindById(recent, id).Some?
  }

  /** `getDaysSinceLaunch`: the day count of the first product with the id, or nothing when
      there is no such product or its count is missing or 0. */
  function DaysSinceLaunchOf(ps: seq<Product>, id: string): (r: Option<int>)
    ensures r.Some? ==> r.value != 0
    ensures r.Some? ==> FindById(ps, id).Some? && FindById(ps, id).value.launchInfo.Some?
                        && FindById(ps, id).value.launchInfo.value.daysSinceLaunch == r
    ensures r.None? <==> FindById(ps, id).None? || FindById(ps, id).value.launchInfo.None?
                         || FindById(ps, id).value.launchInfo.value.daysSinceLaunch in {None, Some(0)}
  {
    var found := FindById(ps, id);
    if found.None? || found.value.launchInfo.None? then None
    else
      var days := found.value.launchInfo.value.daysSinceLaunch;
      if days.None? || days.value == 0 then None else days
  }

  /** Stamping keeps ids, so the look-up in the stamped list finds the stamped product. */
  lemma {:induction false} FindByIdStampAll(ps: seq<Product>, id: string, now: int, currentDate: int, config: Config)
    ensures var found, stamped := FindById(ps, id), StampAll(ps, now, currentDate, config);
      FindById(stamped, id) == if found.None? then None else Some(Stamp(found.value, now, currentDate, config))
  {
    forall p: Product
      ensures IdIs(id)(StampWith(now, currentDate, config)(p)) == IdIs(id)(p)
    {
      StampSpec(p, now, currentDate, config);
    }
    FindMap(ps, StampWith(now, currentDate, config), IdIs(id), IdIs(id));
  }


  /** A product launched less than a day before the stamping clock has a day count of 0,
      so its day count reads as missing. */
  lemma {:induction false} LaunchedTodayHasNoDayCount(ps: seq<Product>, id: string, now: int, currentDate: int, config: Config)
    requires FindById(ps, id).Some?
    requires var p := FindById(ps, id).value;
      LaunchDate(p).Some? && currentDate - DayMs < LaunchDate(p).value <= currentDate
    ensures DaysSinceLaunchOf(StampAll(ps, now, currentDate, config), id) == None
  {
    var p := FindById(ps, id).value;
    FindByIdStampAll(ps, id, now, currentDate, config);
    StampSpec(p, now, currentDate, config);
  }
}

=== FILE: recent_launches.dfy ===
/** The `RecentLaunches` manager: it holds the catalog and its settings, and on start-up
    (and on every settings change) detects the recent launches, stamps the products and
    recomputes the statistics. Clock readings are passed in. */
module Launches {
  import opened Common
  import opened Sorting
  import opened Catalog
  import opened Recency

  /** The single pass of `calculateStats` over the products: categories tallied, price
      sum and range tracked and timeline entries collected in one loop, then the rounded
      average and the timeline sorted newest first. An empty list gives the empty
      statistics. */
  method TabulateStats(s: seq<Product>, totalNew: int) returns (r: RecentStats)
    ensures r == StatsOf(s, totalNew)
  {
    if |s| == 0 {
      return EmptyStats(totalNew);
    }
    var totalPrice := 0;
    var byCategory: map<string, nat> := map[];
    var least: Option<int> := None;
    var most := 0;
    var timeline: seq<TimelineEntry> := [];
    for i := 0 to |s|
      invariant totalPrice == PriceSum(s[..i])
      invariant byCategory == CategoryCounts(s[..i])
      invariant least == MinPrice(s[..i]) && most == MaxPrice(s[..i])
      invariant timeline == Map(s[..i], EntryOf)
    {
      var product := s[i];
      StatsStep(s, i);
      TimelineStep(s, i);
      byCategory := Tally(byCategory, CategoryKey(product));
      var price := PriceOrZero(product);
      totalPrice := totalPrice + price;
      least := Some(if least.Some? && least.value <= price then least.value else price);
      most := if most < price then price else most;
      timeline := timeline + [EntryOf(product)];
    }
    assert s[..|s|] == s;
    var averagePrice := RoundedQuotient(totalPrice, |s|);
    timeline := Sort(timeline, EntryNewestFirst());
    r := RecentStats(totalNew, byCategory, averagePrice, least, most, timeline);
  }

  /** The `forEach` of `generateAnnouncement` that pushes one limited-offer announcement
      per promotional product after the ones already listed. */
  method AppendOffers(listed: seq<Announcement>, promotional: seq<Product>) returns (r: seq<Announcement>)
    requires forall k :: 0 <= k < |promotional| ==> HasActivePromotion(promotional[k])
    ensures r == listed + Offers(promotional)
  {
    r := listed;
    for i := 0 to |promotional|
      invariant r == listed + Offers(promotional[..i])
    {
      OffersStep(promotional, i);
      r := r + [OfferFor(promotional[i])];
    }
    assert promotional[..|promotional|] == promotional;
  }

  class RecentLaunches {
    var products: seq<Product>
    var config: Config
    var currentDate: int
    var recentProducts: seq<Product>
    var newProductsCount: int
    var stats: Option<RecentStats>
    /** The threshold of the last detection, if one ran. */
    ghost var detectedSince: Option<int>

    /** The count matches the recent list, and the recent list is what a detection at the
        recorded threshold finds in the current catalog. */
    ghost predicate Valid()
      reads this
    {
      && newProductsCount == |recentProducts|
      && (detectedSince.None? ==> recentProducts == [])
      && (detectedSince.Some? ==> recentProducts == Launched(products, detectedSince.value))
    }

    /** Settings are the defaults overridden by `patch`; with auto-detection on, the catalog
        is stamped and the recent launches and their statistics are computed at `now`. */
    constructor (catalog: seq<Product>, patch: ConfigPatch, now: int)
      ensures Valid()
      ensures config == Merge(DefaultConfig, patch) && currentDate == now
      ensures config.enableAutoDetection ==>
        && products == StampAll(catalog, now, now, config)
        && recentProducts == Launched(products, Threshold(now, config.recentDaysThreshold))
        && stats == (if recentProducts == [] then None else Some(StatsOf(recentProducts, newProductsCount)))
      ensures !config.enableAutoDetection ==> products == catalog && recentProducts == [] && stats == None
    {
      products := catalog;
      config := Merge(DefaultConfig, patch);
      currentDate := now;
      recentProducts := [];
      newProductsCount := 0;
      stats := None;
      detectedSince := None;
      new;
      Init(now);
    }

    /** `init`: with auto-detection on, detect at `now`, stamp, and recompute the
        statistics; otherwise nothing changes. */
    method Init(now: int)
      modifies this
      requires Valid()
      ensures Valid()
      ensures config == old(config) && currentDate == old(currentDate)
      ensures config.enableAutoDetection ==>
        && products == StampAll(old(products), now, currentDate, config)
        && recentProducts == Launched(products, Threshold(now, config.recentDaysThreshold))
        && stats == (if recentProducts == [] then old(stats) else Some(StatsOf(recentProducts, newProductsCount)))
      ensures !config.enableAutoDetection ==>
        && products == old(products) && recentProducts == old(recentProducts)
        && newProductsCount == old(newProductsCount) && stats == old(stats)
    {
      if config.enableAutoDetection {
        DetectRecentLaunches(now);
        MarkNewProducts(now);
        var _ := CalculateStats();
      }
    }

    /** `detectRecentLaunches`: the products launched within the configured number of days
        before `now`, newest first, and their count. */
    method DetectRecentLaunches(now: int)
      modifies this
      ensures Valid()
      ensures recentProducts == Launched(products, Threshold(now, config.recentDaysThreshold))
      ensures newProductsCount == |recentProducts|
      ensures products == old(products) && config == old(config) && currentDate == old(currentDate)
      ensures stats == old(stats) && detectedSince == Some(Threshold(now, config.recentDaysThreshold))
    {
      var threshold := Threshold(now, config.recentDaysThreshold);
      recentProducts := Launched(products, threshold);
      newProductsCount := |recentProducts|;
      detectedSince := Some(threshold);
    }

    /** `markNewProducts`: stamps every catalog product in turn. The recent products are
        the same objects, so they come out stamped too. */
    method MarkNewProducts(now: int)
      modifies this
      requires Valid()
      ensures Valid()
      ensures products == StampAll(old(products), now, currentDate, config)
      ensures recentProducts == StampAll(old(recentProducts), now, currentDate, config)
      ensures newProductsCount == old(newProductsCount) && stats == old(stats)
      ensures config == old(config) && currentDate == old(currentDate)
      ensures detectedSince == old(detectedSince)
    {
      var ps := products;
      var i := 0;
      while i < |ps|
        invariant 0 <= i <= |ps| == |products|
        invariant forall k :: 0 <= k < i ==> ps[k] == Stamp(products[k], now, currentDate, config)
        invariant forall k :: i <= k < |ps| ==> ps[k] == products[k]
      {
        ps := ps[i := Stamp(ps[i], now, currentDate, config)];
        i := i + 1;
      }
      assert ps == StampAll(products, now, currentDate, config) by {
        assert |StampAll(products, now, currentDate, config)| == |ps|;
      }
      products := ps;
      recentProducts := StampAll(recentProducts, now, currentDate, config);
      if detectedSince.Some? {
        LaunchedStampAll(old(products), detectedSince.value, now, currentDate, config);
      }
    }

    /** `calculateStats`: the statistics of the recent products, stored when there are
        any. With no recent products the empty statistics are returned and the stored
        ones are left as they were. */
    method CalculateStats() returns (r: RecentStats)
      modifies this
      requires Valid()
      ensures Valid()
      ensures r == StatsOf(recentProducts, newProductsCount)
      ensures stats == (if recentProducts == [] then old(stats) else Some(r))
      ensures products == old(products) && recentProducts == old(recentProducts)
      ensures newProductsCount == old(newProductsCount)
      ensures config == old(config) && currentDate == old(currentDate)
      ensures detectedSince == old(detectedSince)
    {
      r := TabulateStats(recentProducts, newProductsCount);
      if recentProducts != [] {
        stats := Some(r);
      }
    }

    /** `generateAnnouncement`: the main announcement, then one offer per promotional
        recent product, sorted by priority; nothing without new products or with the
        banner switched off. */
    method GenerateAnnouncement() returns (r: Option<seq<Announcement>>)
      requires Valid()
      ensures r == Announcements(recentProducts, config)
    {
      if newProductsCount == 0 || !config.showAnnouncementBanner {
        return None;
      }
      var announcements: seq<Announcement>;
      if newProductsCount == 1 {
        var product := recentProducts[0];
        announcements := [SingleLaunch(product, product.name + " is now available")];
      } else {
        announcements := [MultipleLaunches(newProductsCount, config.recentDaysThreshold)];
      }
      assert announcements == [LaunchNotice(recentProducts, config)];
      announcements := AppendOffers(announcements, PromotionalProducts(recentProducts));
      announcements := Sort(announcements, ByPriority());
      return Some(announcements);
    }

    /** `updateConfig`: merge the patch into the current settings and re-initialise. */
    method UpdateConfig(patch: ConfigPatch, now: int)
      modifies this
      requires Valid()
      ensures Valid()
      ensures config == Merge(old(config), patch) && currentDate == old(currentDate)
      ensures config.enableAutoDetection ==>
        && products == StampAll(old(products), now, currentDate, config)
        && recentProducts == Launched(products, Threshold(now, config.recentDaysThreshold))
        && stats == (if recentProducts == [] then old(stats) else Some(StatsOf(recentProducts, newProductsCount)))
      ensures !config.enableAutoDetection ==>
        products == old(products) && recentProducts == old(recentProducts) && stats == old(stats)
    {
      config := Merge(config, patch);
      Init(now);
    }

    /** `resetConfig`: back to the built-in settings, then re-initialise. */
    method ResetConfig(now: int)
      modifies this
      requires Valid()
      ensures Valid()
      ensures config == DefaultConfig && currentDate == old(currentDate)
      ensures products == StampAll(old(products), now, currentDate, DefaultConfig)
      ensures recentProducts == Launched(products, Threshold(now, DefaultConfig.recentDaysThreshold))
      ensures stats == (if recentProducts == [] then old(stats) else Some(StatsOf(recentProducts, newProductsCount)))
    {
      config := DefaultConfig;
      Init(now);
    }
  }
}

=== FILE: sorting.dfy ===
/** The stable sort that `Array.prototype.sort` provides (ECMAScript 2019, section 22.1.3.27),
    written as an insertion sort over a comparison `le(a, b)`, read as "a may stay before b"
    (the source's comparator returning a value <= 0). */
module Sorting {
  import opened Common

  /** `le` is total and transitive: the shape of every comparator the storefront passes to sort. */
  ghost predicate TotalPreorder<T(!new)>(le: (T, T) -> bool)
  {
    && (forall a, b :: le(a, b) || le(b, a))
    && (forall a, b, c :: le(a, b) && le(b, c) ==> le(a, c))
  }

  predicate Sorted<T>(s: seq<T>, le: (T, T) -> bool)
  {
    forall i, j :: 0 <= i < j < |s| ==> le(s[i], s[j])
  }

  /** Neither element must precede the other: the comparator returns 0. */
  predicate Tie<T>(a: T, b: T, le: (T, T) -> bool)
  {
    le(a, b) && le(b, a)
  }

  /** The elements of `s` that tie with `y`, in the order they appear in `s`. */
  function Ties<T>(s: seq<T>, y: T, le: (T, T) -> bool): seq<T>
  {
    if s == [] then []
    else Ties(s[..|s| - 1], y, le) + (if Tie(s[|s| - 1], y, le) then [s[|s| - 1]] else [])
  }

  /** Places `x` after every element it does not precede, scanning from the end. */
  function Insert<T>(x: T, s: seq<T>, le: (T, T) -> bool): (r: seq<T>)
    ensures |r| == |s| + 1
  {
    if s == [] then [x]
    else if le(s[|s| - 1], x) then s + [x]
    else
      var s' := s[..|s| - 1];
      assert s == s' + [s[|s| - 1]];
      Insert(x, s', le) + [s[|s| - 1]]
  }

  /** The stable sort of `s`: every element is inserted into the sorted prefix before it. */
  function Sort<T>(s: seq<T>, le: (T, T) -> bool): (r: seq<T>)
    ensures |r| == |s|
  {
    if s == [] then []
    else
      var s' := s[..|s| - 1];
      assert s == s' + [s[|s| - 1]];
      Insert(s[|s| - 1], Sort(s', le), le)
  }

  /** Insertion adds `x` and keeps every other element. */
  lemma {:induction false} InsertMultiset<T>(x: T, s: seq<T>, le: (T, T) -> bool)
    ensures multiset(Insert(x, s, le)) == multiset(s) + multiset{x}
  {
    if s != [] && !le(s[|s| - 1], x) {
      var s' := s[..|s| - 1];
      InsertMultiset(x, s', le);
      assert s == s' + [s[|s| - 1]];
    }
  }

  /** The sort is a permutation: every element occurs as often as in the input. */
  lemma {:induction false} SortMultiset<T>(s: seq<T>, le: (T, T) -> bool)
    ensures multiset(Sort(s, le)) == multiset(s)
  {
    if s != [] {
      var s' := s[..|s| - 1];
      SortMultiset(s', le);
      InsertMultiset(s[|s| - 1], Sort(s', le), le);
      assert s == s' + [s[|s| - 1]];
    }
  }

  lemma {:induction false} InsertSorted<T(!new)>(x: T, s: seq<T>, le: (T, T) -> bool)
    requires TotalPreorder(le) && Sorted(s, le)
    ensures Sorted(Insert(x, s, le), le)
  {
    if s == [] {
    } else if le(s[|s| - 1], x) {
    } else {
      var s', last := s[..|s| - 1], s[|s| - 1];
      InsertSorted(x, s', le);
      var r' := Insert(x, s', le);
      InsertMultiset(x, s', le);
      assert le(x, last);
      forall k | 0 <= k < |r'|
        ensures le(r'[k], last)
      {
        assert r'[k] in multiset(r');
        if r'[k] != x {
          assert r'[k] in multiset(s');
          var j :| 0 <= j < |s'| && s'[j] == r'[k];
          assert s[j] == r'[k];
        }
      }
    }
  }

  /** Sort returns its input ordered by `le`. */
  lemma {:induction false} SortSorted<T(!new)>(s: seq<T>, le: (T, T) -> bool)
    requires TotalPreorder(le)
    ensures Sorted(Sort(s, le), le)
  {
    if s != [] {
      SortSorted(s[..|s| - 1], le);
      InsertSorted(s[|s| - 1], Sort(s[..|s| - 1], le), le);
    }
  }

  lemma {:induction false} TiesSnoc<T>(s: seq<T>, x: T, y: T, le: (T, T) -> bool)
    ensures Ties(s + [x], y, le) == Ties(s, y, le) + (if Tie(x, y, le) then [x] else [])
  {
    assert (s + [x])[..|s + [x]| - 1] == s;
  }

  lemma {:induction false} InsertTies<T(!new)>(x: T, s: seq<T>, y: T, le: (T, T) -> bool)
    requires TotalPreorder(le)
    ensures Ties(Insert(x, s, le), y, le) == Ties(s, y, le) + (if Tie(x, y, le) then [x] else [])
  {
    if s == [] {
      TiesSnoc([], x, y, le);
    } else if le(s[|s| - 1], x) {
      TiesSnoc(s, x, y, le);
    } else {
      var s', last := s[..|s| - 1], s[|s| - 1];
      InsertTies(x, s', y, le);
      TiesSnoc(Insert(x, s', le), last, y, le);
      assert !(Tie(x, y, le) && Tie(last, y, le));
    }
  }

  /** Stability: the elements that tie with any `y` keep their input order. */
  lemma {:induction false} SortStable<T(!new)>(s: seq<T>, y: T, le: (T, T) -> bool)
    requires TotalPreorder(le)
    ensures Ties(Sort(s, le), y, le) == Ties(s, y, le)
  {
    if s != [] {
      var s' := s[..|s| - 1];
      SortStable(s', y, le);
      InsertTies(s[|s| - 1], Sort(s', le), y, le);
    }
  }

  /** An element that must not stay after `x` ends up after it. */
  lemma InsertPast<T>(x: T, s: seq<T>, y: T, le: (T, T) -> bool)
    requires !le(y, x)
    ensures Insert(x, s + [y], le) == Insert(x, s, le) + [y]
  {
    assert (s + [y])[..|s|] == s;
  }

  /** Sorting one more element inserts it into the sorted rest. */
  lemma SortSnoc<T>(s: seq<T>, x: T, le: (T, T) -> bool)
    ensures Sort(s + [x], le) == Insert(x, Sort(s, le), le)
  {
    assert (s + [x])[..|s|] == s;
  }

  /** Elements that may all stay before one another are kept as they are by insertion. */
  lemma {:induction false} InsertAmongEqual<T>(x: T, s: seq<T>, le: (T, T) -> bool)
    requires s != [] ==> le(s[|s| - 1], x)
    ensures Insert(x, s, le) == s + [x]
  {
  }

  /** Sorting a first element that must go after all the others, which may stay in any
      order among themselves, moves it to the end and keeps the others in order. */
  lemma {:induction false} SortMovesPastStep<T>(y: T, rest: seq<T>, x: T, le: (T, T) -> bool)
    requires Sort([y] + rest, le) == rest + [y]
    requires !le(y, x) && (rest != [] ==> le(rest[|rest| - 1], x))
    ensures Sort([y] + (rest + [x]), le) == (rest + [x]) + [y]
  {
    assert [y] + (rest + [x]) == ([y] + rest) + [x];
    SortSnoc([y] + rest, x, le);
    InsertPast(x, rest, y, le);
    InsertAmongEqual(x, rest, le);
  }

  lemma {:induction false} SortMovesPast<T>(y: T, s: seq<T>, le: (T, T) -> bool)
    requires forall i, j :: 0 <= i < |s| && 0 <= j < |s| ==> le(s[i], s[j])
    requires forall k :: 0 <= k < |s| ==> !le(y, s[k])
    ensures Sort([y] + s, le) == s + [y]
  {
    if s != [] {
      var rest, x := s[..|s| - 1], s[|s| - 1];
      SortMovesPast(y, rest, le);
      SortMovesPastStep(y, rest, x, le);
      assert rest + [x] == s;
    }
  }

  /** A map that keeps every comparison's outcome commutes with insertion. */
  lemma {:induction false} InsertMap<T>(x: T, s: seq<T>, le: (T, T) -> bool, f: T -> T)
    requires forall a, b :: le(f(a), f(b)) == le(a, b)
    ensures Insert(f(x), Map(s, f), le) == Map(Insert(x, s, le), f)
  {
    if s == [] {
      assert Map([x], f) == [f(x)];
    } else {
      var s', y := s[..|s| - 1], s[|s| - 1];
      assert s == s' + [y];
      MapAppend(s', [y], f);
      var m := Map(s, f);
      assert m == Map(s', f) + [f(y)];
      assert m[..|m| - 1] == Map(s', f) && m[|m| - 1] == f(y);
      if le(y, x) {
        assert le(f(y), f(x));
        MapAppend(s, [x], f);
        calc {
          Insert(f(x), m, le);
          m + [f(x)];
          Map(s + [x], f);
        }
      } else {
        assert !le(f(y), f(x));
        InsertMap(x, s', le, f);
        MapAppend(Insert(x, s', le), [y], f);
        calc {
          Insert(f(x), m, le);
          Insert(f(x), Map(s', f), le) + [f(y)];
          Map(Insert(x, s', le), f) + [f(y)];
          Map(Insert(x, s', le) + [y], f);
        }
      }
    }
  }

  /** A map that keeps every comparison's outcome commutes with the sort. */
  lemma {:induction false} SortMap<T>(s: seq<T>, le: (T, T) -> bool, f: T -> T)
    requires forall a, b :: le(f(a), f(b)) == le(a, b)
    ensures Sort(Map(s, f), le) == Map(Sort(s, le), f)
  {
    if s != [] {
      var s' := s[..|s| - 1];
      assert s == s' + [s[|s| - 1]];
      MapAppend(s', [s[|s| - 1]], f);
      assert Map(s, f)[..|s| - 1] == Map(s', f);
      SortMap(s', le, f);
      InsertMap(s[|s| - 1], Sort(s', le), le, f);
    }
  }

  /** Sorting what is already in order returns it unchanged. */
  lemma {:induction false} SortOfSorted<T>(s: seq<T>, le: (T, T) -> bool)
    requires Sorted(s, le)
    ensures Sort(s, le) == s
  {
    if s != [] {
      var s' := s[..|s| - 1];
      assert Sorted(s', le);
      SortOfSorted(s', le);
      assert s == s' + [s[|s| - 1]];
    }
  }
}

=== FILE: storefront.dfy ===
/** The storefront controller: the application state it keeps and the handlers that change
    it in place. Every handler re-establishes `Valid()`: the listing is always the query
    pipeline applied to the catalog, the current page is accepted by the pager (or is
    page 1), the cart and the compare list keep their ledger invariants. */
module Storefront {
  import opened Common
  import opened Text
  import opened Catalog
  import opened Query
  import opened Paging
  import opened Ledger

  /** A valid cart whose lines hold catalog products. */
  predicate CartWithin(cart: seq<CartLine>, products: seq<Product>)
  {
    CartValid(cart) && LinesFrom(cart, products)
  }

  /** At most four ids, none twice. */
  predicate CompareListValid(selected: seq<string>)
  {
    NoDuplicates(selected) && |selected| <= 4
  }

  /** The category and sort key the page starts with and returns to on reset. */
  const DefaultCategory: string := "all"
  const DefaultSort: string := "newest"

  class Storefront {
    var products: seq<Product>
    var filteredProducts: seq<Product>
    var currentCategory: string
    var currentSort: string
    var currentPage: int
    var itemsPerPage: int
    var searchQuery: string
    var priceRange: Option<PriceRange>
    var selectedProducts: seq<string>
    var cart: seq<CartLine>
    var theme: string

    ghost predicate Valid()
      reads this
    {
      && itemsPerPage >= 1
      && filteredProducts == Query.ApplyFilters(products, currentCategory, searchQuery, priceRange, currentSort)
      && (currentPage == 1 || AcceptsPage(currentPage, |filteredProducts|, itemsPerPage))
      && CartWithin(cart, products)
      && CompareListValid(selectedProducts)
    }

    /** Start-up: the default state, the page size and theme from the configuration (a
        stored theme first), the loaded catalog, and a first run of the filters. The user's
        stored page size, when one is saved, then replaces the configured one before the
        first render. */
    constructor(catalog: seq<Product>, productsPerPage: Option<int>, storedTheme: Option<string>,
                defaultTheme: Option<string>, storedPageSize: Option<int>)
      requires productsPerPage.None? || productsPerPage.value >= 0
      requires storedPageSize.None? || storedPageSize.value >= 1
      ensures Valid()
      ensures products == catalog && cart == [] && selectedProducts == []
      ensures currentCategory == DefaultCategory && currentSort == DefaultSort && searchQuery == ""
      ensures priceRange == None && currentPage == 1
      ensures storedPageSize.Some? ==> itemsPerPage == storedPageSize.value
      ensures storedPageSize.None? ==>
        itemsPerPage == (if productsPerPage.Some? && productsPerPage.value != 0 then productsPerPage.value else 12)
      ensures theme == TextOr(storedTheme, TextOr(defaultTheme, "dark"))
    {
      products := catalog;
      currentCategory := DefaultCategory;
      currentSort := DefaultSort;
      currentPage := 1;
      itemsPerPage := if productsPerPage.Some? && productsPerPage.value != 0 then productsPerPage.value else 12;
      if storedPageSize.Some? {
        itemsPerPage := storedPageSize.value;
      }
      searchQuery := "";
      priceRange := None;
      selectedProducts := [];
      cart := [];
      theme := TextOr(storedTheme, TextOr(defaultTheme, "dark"));
      filteredProducts := Query.ApplyFilters(catalog, DefaultCategory, "", None, DefaultSort);
    }

    /** `applyFilters`: recomputes the listing from the catalog and the current criteria. */
    method ApplyFilters()
      modifies this
      ensures filteredProducts == Query.ApplyFilters(products, currentCategory, searchQuery, priceRange, currentSort)
      ensures products == old(products) && currentCategory == old(currentCategory)
      ensures currentSort == old(currentSort) && currentPage == old(currentPage)
      ensures itemsPerPage == old(itemsPerPage) && searchQuery == old(searchQuery)
      ensures priceRange == old(priceRange) && selectedProducts == old(selectedProducts)
      ensures cart == old(cart) && theme == old(theme)
    {
      var filtered := products;
      if currentCategory != "all" {
        filtered := FilterByCategory(filtered, currentCategory);
      }
      TrimEmptyIffBlank(searchQuery);
      if Trim(searchQuery) != "" {
        filtered := FilterBySearch(filtered, searchQuery);
      }
      if priceRange.Some? {
        filtered := FilterByPrice(filtered, priceRange.value.min, priceRange.value.max);
      }
      filteredProducts := SortProducts(filtered, currentSort);
    }

    /** `handleCategoryChange`: new category, back to page 1, listing recomputed. */
    method HandleCategoryChange(category: string)
      requires Valid()
      modifies this
      ensures Valid()
      ensures currentCategory == category && currentPage == 1
      ensures filteredProducts == Query.ApplyFilters(products, category, searchQuery, priceRange, currentSort)
      ensures products == old(products) && currentSort == old(currentSort)
      ensures itemsPerPage == old(itemsPerPage) && searchQuery == old(searchQuery)
      ensures priceRange == old(priceRange) && selectedProducts == old(selectedProducts)
      ensures cart == old(cart) && theme == old(theme)
    {
      currentCategory := category;
      currentPage := 1;
      ApplyFilters();
    }

    /** `handleSortChange`: new sort key, back to page 1, listing recomputed. */
    method HandleSortChange(sortType: string)
      requires Valid()
      modifies this
      ensures Valid()
      ensures currentSort == sortType && currentPage == 1
      ensures filteredProducts == Query.ApplyFilters(products, currentCategory, searchQuery, priceRange, sortType)
      ensures products == old(products) && currentCategory == old(currentCategory)
      ensures itemsPerPage == old(itemsPerPage) && searchQuery == old(searchQuery)
      ensures priceRange == old(priceRange) && selectedProducts == old(selectedProducts)
      ensures cart == old(cart) && theme == old(theme)
    {
      currentSort := sortType;
      currentPage := 1;
      ApplyFilters();
    }

    /** `handleSearch`: new query (kept untrimmed), back to page 1, listing recomputed. */
    method HandleSearch(query: string)
      requires Valid()
      modifies this
      ensures Valid()
      ensures searchQuery == query && currentPage == 1
      ensures filteredProducts == Query.ApplyFilters(products, currentCategory, query, priceRange, currentSort)
      ensures products == old(products) && currentCategory == old(currentCategory)
      ensures currentSort == old(currentSort) && itemsPerPage == old(itemsPerPage)
      ensures priceRange == old(priceRange) && selectedProducts == old(selectedProducts)
      ensures cart == old(cart) && theme == old(theme)
    {
      searchQuery := query;
      currentPage := 1;
      ApplyFilters();
    }

    /** `handlePageChange`: a page outside [1, ceil(n / itemsPerPage)] is ignored. */
    method HandlePageChange(page: int)
      requires Valid()
      modifies this
      ensures Valid()
      ensures currentPage == (if AcceptsPage(page, |filteredProducts|, itemsPerPage) then page else old(currentPage))
      ensures products == old(products) && filteredProducts == old(filteredProducts)
      ensures currentCategory == old(currentCategory) && currentSort == old(currentSort)
      ensures itemsPerPage == old(itemsPerPage) && searchQuery == old(searchQuery)
      ensures priceRange == old(priceRange) && selectedProducts == old(selectedProducts)
      ensures cart == old(cart) && theme == old(theme)
    {
      if page < 1 || page > TotalPages(|filteredProducts|, itemsPerPage) {
        return;
      }
      currentPage := page;
    }

    /** `resetFilters`: every criterion back to its default, page 1, listing recomputed. */
    method ResetFilters()
      requires Valid()
      modifies this
      ensures Valid()
      ensures currentCategory == DefaultCategory && currentSort == DefaultSort && searchQuery == ""
      ensures currentPage == 1 && priceRange == None
      ensures products == old(products) && itemsPerPage == old(itemsPerPage)
      ensures selectedProducts == old(selectedProducts) && cart == old(cart) && theme == old(theme)
    {
      currentCategory := DefaultCategory;
      currentSort := DefaultSort;
      searchQuery := "";
      currentPage := 1;
      priceRange := None;
      ApplyFilters();
    }

    /** `toggleTheme`: 'dark' becomes 'light'; any other theme becomes 'dark'. */
    method ToggleTheme()
      requires Valid()
      modifies this
      ensures Valid()
      ensures theme == (if old(theme) == "dark" then "light" else "dark")
      ensures theme != old(theme)
      ensures products == old(products) && filteredProducts == old(filteredProducts)
      ensures currentCategory == old(currentCategory) && currentSort == old(currentSort)
      ensures currentPage == old(currentPage) && itemsPerPage == old(itemsPerPage)
      ensures searchQuery == old(searchQuery) && priceRange == old(priceRange)
      ensures selectedProducts == old(selectedProducts) && cart == old(cart)
    {
      theme := if theme == "dark" then "light" else "dark";
    }

    /** `getProduct`: the first catalog product with the id, if any. */
    function GetProduct(productId: string): (r: Option<Product>)
      reads this
      ensures r.Some? ==> r.value in products && r.value.id == productId
      ensures r.None? <==> forall k :: 0 <= k < |products| ==> products[k].id != productId
    {
      FindById(products, productId)
    }

    /** `handleAddToCart` without a cart manager: an id outside the catalog changes nothing;
        otherwise one more unit on its line, or a new line with quantity 1. */
    method AddToCart(productId: string)
      requires Valid()
      modifies this
      ensures Valid()
      ensures cart == (if FindById(products, productId).None? then old(cart) else AddLine(old(cart), FindById(products, productId).value))
      ensures products == old(products) && filteredProducts == old(filteredProducts)
      ensures currentCategory == old(currentCategory) && currentSort == old(currentSort)
      ensures currentPage == old(currentPage) && itemsPerPage == old(itemsPerPage)
      ensures searchQuery == old(searchQuery) && priceRange == old(priceRange)
      ensures selectedProducts == old(selectedProducts) && theme == old(theme)
    {
      var found := GetProduct(productId);
      if found.None? {
        return;
      }
      var product := found.value;
      AddLineValid(cart, product);
      LinesFromAdd(cart, products, product);
      cart := AddLine(cart, product);
    }

    /** `updateCartQuantity`: moves the quantity of the id's line; a line reaching 0 or
        less is removed. */
    method UpdateCartQuantity(productId: string, change: int)
      requires Valid()
      modifies this
      ensures Valid()
      ensures cart == ChangeQuantity(old(cart), productId, change)
      ensures products == old(products) && filteredProducts == old(filteredProducts)
      ensures currentCategory == old(currentCategory) && currentSort == old(currentSort)
      ensures currentPage == old(currentPage) && itemsPerPage == old(itemsPerPage)
      ensures searchQuery == old(searchQuery) && priceRange == old(priceRange)
      ensures selectedProducts == old(selectedProducts) && theme == old(theme)
    {
      var lines := cart;
      var i := LineIndex(lines, productId);
      if i < 0 {
        return;
      }
      var quantity := lines[i].quantity + change;
      if quantity <= 0 {
        RemoveFromCart(productId);
      } else {
        var next := lines[i := lines[i].(quantity := quantity)];
        assert next == ChangeQuantity(lines, productId, change);
        ChangeQuantityValid(lines, productId, change);
        LinesFromChange(lines, products, productId, change);
        cart := next;
      }
    }

    /** `removeFromCart`: drops the id's line. */
    method RemoveFromCart(productId: string)
      requires Valid()
      modifies this
      ensures Valid()
      ensures cart == RemoveLines(old(cart), productId)
      ensures products == old(products) && filteredProducts == old(filteredProducts)
      ensures currentCategory == old(currentCategory) && currentSort == old(currentSort)
      ensures currentPage == old(currentPage) && itemsPerPage == old(itemsPerPage)
      ensures searchQuery == old(searchQuery) && priceRange == old(priceRange)
      ensures selectedProducts == old(selectedProducts) && theme == old(theme)
    {
      RemoveValid(cart, productId);
      LinesFromChange(cart, products, productId, 0);
      cart := RemoveLines(cart, productId);
    }

    /** `handleCompareToggle`: splices a selected id out, or pushes an unselected one
        unless four are already selected. */
    method CompareToggle(productId: string)
      requires Valid()
      modifies this
      ensures Valid()
      ensures selectedProducts == Ledger.CompareToggle(old(selectedProducts), productId)
      ensures productId in selectedProducts <==> productId !in old(selectedProducts) && |old(selectedProducts)| < 4
      ensures products == old(products) && filteredProducts == old(filteredProducts)
      ensures currentCategory == old(currentCategory) && currentSort == old(currentSort)
      ensures currentPage == old(currentPage) && itemsPerPage == old(itemsPerPage)
      ensures searchQuery == old(searchQuery) && priceRange == old(priceRange)
      ensures cart == old(cart) && theme == old(theme)
    {
      CompareToggleSpec(selectedProducts, productId, productId);
      var index := IndexOf(selectedProducts, productId);
      if index == -1 {
        if |selectedProducts| >= 4 {
          return;
        }
        selectedProducts := selectedProducts + [productId];
      } else {
        selectedProducts := selectedProducts[..index] + selectedProducts[index + 1..];
      }
    }

    /** `renderProducts`: the products of the current page; never empty unless the listing is. */
    method RenderProducts() returns (page: seq<Product>)
      requires Valid()
      ensures page == PageItems(filteredProducts, currentPage, itemsPerPage)
      ensures |page| <= itemsPerPage
      ensures filteredProducts != [] <==> page != []
    {
      AcceptsPageIffNonEmpty(filteredProducts, currentPage, itemsPerPage);
      page := Slice(filteredProducts, (currentPage - 1) * itemsPerPage, (currentPage - 1) * itemsPerPage + itemsPerPage);
    }

    /** `updateProductCount`: "No products found", or the range the current page shows. */
    method UpdateProductCount() returns (view: CountView)
      requires Valid()
      ensures view.NoProducts? <==> filteredProducts == []
      ensures view.Showing? ==>
        && 1 <= view.first <= view.last <= view.total == |filteredProducts|
        && filteredProducts[view.first - 1..view.last] == PageItems(filteredProducts, currentPage, itemsPerPage)
    {
      var total := |filteredProducts|;
      var start := (currentPage - 1) * itemsPerPage + 1;
      var end := Min(start + itemsPerPage - 1, total);
      view := if total == 0 then NoProducts else Showing(start, end, total);
      if total > 0 {
        AcceptsPageIffNonEmpty(filteredProducts, 1, itemsPerPage);
        ProductCountMatchesPage(filteredProducts, currentPage, itemsPerPage);
      }
    }

    /** `updateCartBadge`: the number of units in the cart; shown only when positive. */
    method UpdateCartBadge() returns (count: int, shown: bool)
      requires Valid()
      ensures count == CartCount(cart) && count >= |cart|
      ensures shown <==> cart != []
    {
      BadgeShownIffNonEmpty(cart);
      count := 0;
      for k := 0 to |cart|
        invariant count + CartCount(cart[k..]) == CartCount(cart)
      {
        assert cart[k..] == [cart[k]] + cart[k + 1..];
        count := count + cart[k].quantity;
      }
      shown := count > 0;
    }
  }
}

=== FILE: text.dfy ===
/** The string operations the storefront relies on: `toLowerCase`, `includes`, `trim`,
    `split`/`join` on a single separator character, number-to-text conversion and the
    order `localeCompare` induces. Case folding is ASCII only and the collation is a
    plain code-unit order on case-folded text. */
module Text {

  function LowerChar(c: char): char
  {
    if 'A' <= c <= 'Z' then (c as int + 32) as char else c
  }

  /** `toLowerCase`, restricted to the ASCII letters. */
  function ToLower(s: string): (r: string)
    ensures |r| == |s|
    ensures forall i :: 0 <= i < |s| ==> r[i] == LowerChar(s[i])
  {
    if s == [] then [] else [LowerChar(s[0])] + ToLower(s[1..])
  }

  lemma {:induction false} ToLowerAppend(a: string, b: string)
    ensures ToLower(a + b) == ToLower(a) + ToLower(b)
  {
    assert forall i :: 0 <= i < |a + b| ==> ToLower(a + b)[i] == (ToLower(a) + ToLower(b))[i];
  }

  /** Folding the case twice is folding it once. */
  lemma {:induction false} ToLowerIdempotent(s: string)
    ensures ToLower(ToLower(s)) == ToLower(s)
  {
    assert forall i :: 0 <= i < |s| ==> ToLower(ToLower(s))[i] == ToLower(s)[i];
  }

  predicate OccursAt(hay: string, needle: string, i: int)
  {
    0 <= i <= |hay| - |needle| && hay[i..i + |needle|] == needle
  }

  /** `hay.includes(needle)`: `needle` occurs at some position of `hay`. */
  predicate Includes(hay: string, needle: string)
  {
    exists i | 0 <= i <= |hay| - |needle| :: OccursAt(hay, needle, i)
  }

  lemma IncludesEmpty(hay: string)
    ensures Includes(hay, "")
  {
    assert OccursAt(hay, "", 0);
  }

  /** Whatever contains `a + b` contains `a`. */
  lemma {:induction false} IncludesPrefix(hay: string, a: string, b: string)
    requires Includes(hay, a + b)
    ensures Includes(hay, a)
  {
    var i :| 0 <= i <= |hay| - |a + b| && OccursAt(hay, a + b, i);
    assert hay[i..i + |a|] == (a + b)[..|a|] == a;
    assert OccursAt(hay, a, i);
  }

  /** The characters `String.prototype.trim` removes: ECMAScript WhiteSpace and LineTerminator. */
  predicate IsWhiteSpace(c: char)
  {
    c == '\t' || c == '\n' || c == '\U{000B}' || c == '\U{000C}' || c == '\r' || c == ' '
    || c == '\U{00A0}' || c == '\U{1680}' || ('\U{2000}' <= c <= '\U{200A}')
    || c == '\U{2028}' || c == '\U{2029}' || c == '\U{202F}' || c == '\U{205F}'
    || c == '\U{3000}' || c == '\U{FEFF}'
  }

  /** `s` without its leading white space. */
  function TrimStart(s: string): string
  {
    if s != [] && IsWhiteSpace(s[0]) then TrimStart(s[1..]) else s
  }

  /** `s` without its trailing white space. */
  function TrimEnd(s: string): string
  {
    if s != [] && IsWhiteSpace(s[|s| - 1]) then TrimEnd(s[..|s| - 1]) else s
  }

  /** TrimStart drops a prefix made of white space only, and stops at a non-space. */
  lemma {:induction false} TrimStartSpec(s: string)
    ensures var r := TrimStart(s);
      && |r| <= |s| && r == s[|s| - |r|..]
      && (r != [] ==> !IsWhiteSpace(r[0]))
      && (forall i :: 0 <= i < |s| - |r| ==> IsWhiteSpace(s[i]))
  {
    if s != [] && IsWhiteSpace(s[0]) {
      var t := s[1..];
      TrimStartSpec(t);
      var r := TrimStart(t);
      assert TrimStart(s) == r;
      assert t[|t| - |r|..] == s[|s| - |r|..];
      forall i | 0 <= i < |s| - |r|
        ensures IsWhiteSpace(s[i])
      {
        if i > 0 {
          assert s[i] == t[i - 1];
        }
      }
    }
  }

  /** TrimEnd drops a suffix made of white space only, and stops at a non-space. */
  lemma {:induction false} TrimEndSpec(s: string)
    ensures var r := TrimEnd(s);
      && |r| <= |s| && r == s[..|r|]
      && (r != [] ==> !IsWhiteSpace(r[|r| - 1]))
      && (forall i :: |r| <= i < |s| ==> IsWhiteSpace(s[i]))
  {
    if s != [] && IsWhiteSpace(s[|s| - 1]) {
      var t := s[..|s| - 1];
      TrimEndSpec(t);
      var r := TrimEnd(t);
      assert TrimEnd(s) == r;
      assert t[..|r|] == s[..|r|];
      forall i | |r| <= i < |s|
        ensures IsWhiteSpace(s[i])
      {
        if i < |s| - 1 {
          assert s[i] == t[i];
        }
      }
    }
  }

  /** `trim`: the string without leading and trailing white space. */
  function Trim(s: string): string
  {
    TrimEnd(TrimStart(s))
  }

  /** The string is made of white space only (the empty string included). */
  predicate Blank(s: string)
  {
    forall i :: 0 <= i < |s| ==> IsWhiteSpace(s[i])
  }

  /** `s.trim()` is falsy exactly when `s` is blank. */
  lemma {:induction false} TrimEmptyIffBlank(s: string)
    ensures Trim(s) == "" <==> Blank(s)
  {
    var t := TrimStart(s);
    TrimStartSpec(s);
    TrimEndSpec(t);
    if Trim(s) == "" {
      assert t == [];
    } else {
      var r := Trim(s);
      assert !IsWhiteSpace(r[0]);
      assert r[0] == t[0] == s[|s| - |t|];
    }
  }

  /** `s.split(sep)`: the pieces between occurrences of `sep`; never empty. */
  function Split(s: string, sep: char): (r: seq<string>)
    ensures |r| >= 1
    ensures forall k :: 0 <= k < |r| ==> sep !in r[k]
  {
    if s == [] then [""]
    else if s[0] == sep then [""] + Split(s[1..], sep)
    else
      var rest := Split(s[1..], sep);
      [[s[0]] + rest[0]] + rest[1..]
  }

  /** `parts.join(sep)`. */
  function Join(parts: seq<string>, sep: char): string
  {
    if parts == [] then ""
    else if |parts| == 1 then parts[0]
    else parts[0] + [sep] + Join(parts[1..], sep)
  }

  /** Joining the pieces of a split gives back the original string. */
  lemma {:induction false} JoinSplit(s: string, sep: char)
    ensures Join(Split(s, sep), sep) == s
  {
    if s == [] {
    } else if s[0] == sep {
      JoinSplit(s[1..], sep);
      var rest := Split(s[1..], sep);
      assert Split(s, sep) == [""] + rest;
      assert ([""] + rest)[1..] == rest;
    } else {
      JoinSplit(s[1..], sep);
      var rest := Split(s[1..], sep);
      var r := [[s[0]] + rest[0]] + rest[1..];
      if |rest| == 1 {
        assert Join(rest, sep) == rest[0];
      } else {
        assert r[1..] == rest[1..];
        assert Join(rest, sep) == rest[0] + [sep] + Join(rest[1..], sep);
      }
    }
  }

  lemma {:induction false} SplitCons(c: char, s: string, sep: char)
    requires c != sep
    ensures Split([c] + s, sep) == [[c] + Split(s, sep)[0]] + Split(s, sep)[1..]
  {
    assert ([c] + s)[1..] == s;
  }

  lemma {:induction false} SplitAppendPiece(p: string, rest: string, sep: char)
    requires sep !in p
    ensures Split(p + rest, sep) == [p + Split(rest, sep)[0]] + Split(rest, sep)[1..]
  {
    if p == [] {
      assert p + rest == rest;
      var r := Split(rest, sep);
      assert r == [r[0]] + r[1..];
      assert p + r[0] == r[0];
    } else {
      assert p + rest == [p[0]] + (p[1..] + rest);
      SplitAppendPiece(p[1..], rest, sep);
      SplitCons(p[0], p[1..] + rest, sep);
      assert [p[0]] + (p[1..] + Split(rest, sep)[0]) == p + Split(rest, sep)[0];
    }
  }

  /** Splitting a join gives back the pieces, as long as no piece holds the separator. */
  lemma {:induction false} SplitJoin(parts: seq<string>, sep: char)
    requires |parts| >= 1
    requires forall k :: 0 <= k < |parts| ==> sep !in parts[k]
    ensures Split(Join(parts, sep), sep) == parts
  {
    if |parts| == 1 {
      SplitAppendPiece(parts[0], "", sep);
      assert parts[0] + "" == parts[0];
    } else {
      var tail := Join(parts[1..], sep);
      SplitJoin(parts[1..], sep);
      assert Join(parts, sep) == parts[0] + ([sep] + tail);
      SplitAppendPiece(parts[0], [sep] + tail, sep);
      assert ([sep] + tail)[1..] == tail;
      assert Split([sep] + tail, sep) == [""] + parts[1..];
      assert parts[0] + "" == parts[0];
      assert parts == [parts[0]] + parts[1..];
    }
  }

  function DigitChar(d: int): (c: char)
    requires 0 <= d < 10
    ensures '0' <= c <= '9'
  {
    ('0' as int + d) as char
  }

  function NatToString(n: nat): (r: string)
    ensures |r| >= 1
    ensures forall i :: 0 <= i < |r| ==> '0' <= r[i] <= '9'
  {
    if n < 10 then [DigitChar(n)] else NatToString(n / 10) + [DigitChar(n % 10)]
  }

  /** The decimal text JavaScript prints for an integer-valued number. */
  function IntToString(n: int): (r: string)
    ensures forall i :: 0 <= i < |r| ==> ('0' <= r[i] <= '9') || r[i] == '-'
  {
    if n < 0 then "-" + NatToString(-n) else NatToString(n)
  }

  /** Three-way code-unit comparison: -1, 0 or 1. */
  function LexCompare(x: string, y: string): (c: int)
    ensures -1 <= c <= 1
    ensures c == 0 <==> x == y
  {
    if x == [] && y == [] then 0
    else if x == [] then -1
    else if y == [] then 1
    else if x[0] < y[0] then -1
    else if x[0] > y[0] then 1
    else
      var c := LexCompare(x[1..], y[1..]);
      assert c == 0 ==> x == [x[0]] + x[1..] == [y[0]] + y[1..] == y;
      c
  }

  lemma {:induction false} LexCompareAntisym(x: string, y: string)
    ensures LexCompare(y, x) == -LexCompare(x, y)
  {
    if x != [] && y != [] && x[0] == y[0] {
      LexCompareAntisym(x[1..], y[1..]);
    }
  }

  lemma {:induction false} LexCompareTrans(x: string, y: string, z: string)
    requires LexCompare(x, y) <= 0 && LexCompare(y, z) <= 0
    ensures LexCompare(x, z) <= 0
  {
    if x != [] && y != [] && z != [] && x[0] == y[0] == z[0] {
      LexCompareTrans(x[1..], y[1..], z[1..]);
    }
  }

  /** `a.localeCompare(b)`, as code-unit order on the ASCII case folds. */
  function LocaleCompare(a: string, b: string): int
  {
    LexCompare(ToLower(a), ToLower(b))
  }

  /** localeCompare orders strings by a total preorder. */
  lemma LocaleCompareIsPreorder(a: string, b: string, c: string)
    ensures LocaleCompare(a, b) <= 0 || LocaleCompare(b, a) <= 0
    ensures LocaleCompare(a, b) <= 0 && LocaleCompare(b, c) <= 0 ==> LocaleCompare(a, c) <= 0
  {
    LexCompareAntisym(ToLower(a), ToLower(b));
    if LocaleCompare(a, b) <= 0 && LocaleCompare(b, c) <= 0 {
      LexCompareTrans(ToLower(a), ToLower(b), ToLower(c));
    }
  }
}
